=== FILE: README.md ===
# LRIT/HRIT header chain decoder

A Dafny model of the header decoder in `xrit/packetmanager/__init__.py`.
An LRIT/HRIT file opens with a chain of header records. Each record is a tag
byte, a big-endian u16 size that counts the 3-byte prefix, and a body. The
first record is normally the Primary record (tag 0). It declares the length
of the whole header span and of the data section that follows it.

The model covers:

- `parseHeader`, which turns a tag and body into a typed record (module `Records`).
  - It is built on a model of Python's big-endian `struct.unpack` (module `Struct`).
  - Big-endian integers are in module `Bytes`.
- `getHeaderData`, which walks a buffer record by record (module `Chain`).
  - It uses Python's slice semantics (module `Slices`).
- `readHeader`, which reads one record through a forward-only file cursor
  with Python's `file.read` semantics (module `HeaderReader`).
- The header/data split that `parseFile`, `loadData` and `dumpData` perform
  with the header length `readHeader` returns (module `Files`).
- The millisecond offset of a Timestamp record from the 1958-01-01 epoch
  (module `Timestamps`).

Every way the code raises or never returns is a value of `DecodeError`:

- `StructError(tag)`: `struct.unpack` rejected a body.
- `ShortSizeField`: fewer than two bytes were left for the size field.
- `NoTagByte`: `ord('')` at the end of the file.
- `Diverges`: the one input on which `getHeaderData` loops forever, a record
  of size 0 whose empty body is accepted.

The chain walker has two definitions:

- `DecodeChain` follows the Python loop on the shrinking remainder.
- `DecodeAt` is an independent walk over absolute offsets into the original buffer.

The lemmas relate them, and relate both to `readHeader` and to encoders
(`EncodeBody`, `EncodeFrame`, `EncodeChain`) that write records back.

Edge cases of the code that the model keeps:

- The Primary body is 13 bytes (`>BIQ`), so a Primary record spans 16 bytes.
  A record whose size field says 13 leaves a 10-byte body, which `>BIQ`
  rejects (`Chain.ThirteenBytePrimaryFails`).
- `getHeaderData` does not check that the first tag is 0.
- A size past the end of the buffer truncates the body silently in
  `getHeaderData`. The record then fails only if its layout needs more bytes.
- A size below 3 gives an empty body in `getHeaderData`. In `readHeader` the
  negative read instead takes the rest of the file as the body.

The source is read as Python 2 code: `str` is a byte string, so
`ord(data[0])` in `getHeaderData` and `ord(f.read(1))` in `readHeader` take
the value of a byte, and `f.read` returns bytes. Under Python 3 the `ord`
call in `getHeaderData` would raise `TypeError` on every non-empty buffer;
the model does not describe that reading.

## Model

| member | source | states |
|---|---|---|
| Bytes.BeUintOfBeBytes | xrit/packetmanager/__init__.py:165 | reading back the big-endian bytes of a number that fits k bytes gives the number |
| Bytes.BeBytesOfBeUint | xrit/packetmanager/__init__.py:165 | writing a big-endian value back gives the bytes it was read from: unsigned big-endian decoding loses nothing |
| Struct.Unpack | xrit/packetmanager/__init__.py:176 | struct.unpack succeeds exactly when the data is as long as the format, and then yields one in-range value per field |
| Struct.UnpackField | xrit/packetmanager/__init__.py:176-215 | for every format, struct.unpack reads field i from that field's width of bytes starting at the calcsize of the fields before it |
| Struct.UnpackPack | xrit/packetmanager/__init__.py:176-215 | unpacking packed values gives the values back, for every format |
| Struct.PackUnpack | xrit/packetmanager/__init__.py:176-215 | packing unpacked values gives the bytes back, for every format |
| Records.LayoutMatchesFixedLength | xrit/packetmanager/__init__.py:175-215 | a tag has a struct layout exactly when it has a fixed body length (13, 6, 48, 7, 14, 11, 4 for tags 0, 1, 2, 5, 128, 129, 131), and that length is the layout size plus the timestamp's skipped byte; every other tag is opaque or unmapped |
| Records.DecodeRecord | xrit/packetmanager/__init__.py:174-220 | parseHeader succeeds exactly when the tag has no fixed length or the body has that length; a failure is a struct error for that tag; the record carries the tag; opaque tags keep the body byte for byte at any length; unmapped tags give a record holding only the tag |
| Records.DecodeEncode | xrit/packetmanager/__init__.py:174-220 | every well-formed record decodes back from its encoded body |
| Records.EncodeDecode | xrit/packetmanager/__init__.py:174-220 | re-encoding a decoded record gives back its body; for the timestamp, all but the skipped first byte |
| Records.DecodePrimaryFields | xrit/packetmanager/__init__.py:175-177 | a 13-byte Primary body is file type code (byte 0), header length (bytes 1-4, big-endian) and data length (bytes 5-12, big-endian) |
| Records.DecodeImageStructureFields | xrit/packetmanager/__init__.py:178-180 | a 6-byte image structure body is bits per pixel (byte 0), columns (bytes 1-2), lines (bytes 3-4), each big-endian, and compression (byte 5) |
| Records.DecodeNavigationFields | xrit/packetmanager/__init__.py:182-184 | a 48-byte navigation body is the projection name (bytes 0-31), then column scale, line scale, column offset and line offset, big-endian u32s at bytes 32, 36, 40 and 44 |
| Records.DecodeSegmentFields | xrit/packetmanager/__init__.py:202-204 | a 14-byte segment body is image id, sequence number, start column, start line, maximum segment, maximum column and maximum row, big-endian u16s at bytes 0, 2, ..., 12 |
| Records.DecodeNoaaFields | xrit/packetmanager/__init__.py:206-208 | an 11-byte NOAA body is the signature (bytes 0-3), product id, product sub-id and parameter (big-endian u16s at bytes 4, 6 and 8) and compression (byte 10) |
| Records.DecodeRiceFields | xrit/packetmanager/__init__.py:213-215 | a 4-byte Rice body is flags (bytes 0-1, big-endian), pixel (byte 2) and line (byte 3) |
| Timestamps.DecodeTimestampFields | xrit/packetmanager/__init__.py:192-194 | a 7-byte timestamp body ignores byte 0 and reads days from bytes 1-2 and milliseconds from bytes 3-6, big-endian |
| Timestamps.DayAndAMillisecond | xrit/packetmanager/__init__.py:192-194 | the body 00 00 01 00 00 00 01, with any first byte, is day 1, millisecond 1, which is 86 400 001 ms after the epoch |
| Timestamps.SplitJoin | xrit/packetmanager/__init__.py:319 | with milliseconds inside a day, the (days, ms) pair is recovered from its epoch offset |
| Timestamps.OffsetOrder | xrit/packetmanager/__init__.py:319 | with milliseconds inside a day, epoch offsets order timestamps lexicographically by (days, ms), in both directions |
| Timestamps.OffsetsRepresentable | xrit/packetmanager/__init__.py:319 | every offset below 65536 days is the offset of a timestamp record with u16 days and milliseconds inside the day |
| Slices.Range | xrit/packetmanager/__init__.py:166 | data[3:size] with non-negative bounds: the plain slice when both bounds lie inside, empty when the stop is not past the start or the start lies past the end, clipped at the end of the sequence otherwise |
| Slices.From | xrit/packetmanager/__init__.py:167 | data[size:], and the timestamp's data[1:]: the suffix from the start, empty when the start lies past the end |
| Slices.UpTo | xrit/packetmanager/__init__.py:171 | data[:headerlength-size]: always a prefix; a non-negative stop keeps min(stop, length) elements, a negative stop keeps max(0, length + stop) elements |
| Chain.FrameSizeBytes | xrit/packetmanager/__init__.py:165 | `FrameSize`, the size of the record at the front, is byte 1 times 256 plus byte 2 |
| Chain.FrameBody | xrit/packetmanager/__init__.py:166 | the body is bytes [3, size) clipped to the buffer, empty when size <= 3 |
| Chain.Remaining | xrit/packetmanager/__init__.py:167-171 | what is left is a prefix of the bytes after size; the whole of them after a non-Primary record; at most headerLength - size bytes after a Primary record that covers its own size |
| Chain.DecodeChain | xrit/packetmanager/__init__.py:161-172 | the empty buffer gives no records; 1 or 2 bytes fail on the size field; a successful walk gives at most one record per byte, and the first is the record decoded from the front of the buffer |
| Chain.DecodeAt | xrit/packetmanager/__init__.py:162-172 | the reference walk finds its records at strictly increasing offsets inside the window, each record's tag being the byte at its offset |
| Chain.DecodeChainWindow | xrit/packetmanager/__init__.py:161-172 | the Python walk over any window of a buffer equals the absolute-offset walk over that window, failures included |
| Chain.DecodeAtSpans | xrit/packetmanager/__init__.py:162-172 | a successful walk over [lo, hi) reads length-prefixed spans back to back: the first record is at lo, each next record starts at the previous offset plus the size declared there, and each record but the last is decoded from its tag byte and the bytes of its span after the 3-byte prefix |
| Chain.ChainInBufferOrder | xrit/packetmanager/__init__.py:162-172 | a successful walk yields the i-th record from the i-th of strictly increasing offsets, with the record's type equal to the tag byte there; the first offset is 0, and each next offset is the previous one plus the size field read there, the previous record being decoded from the bytes of that span |
| Chain.PrimaryBoundsChain | xrit/packetmanager/__init__.py:170-171 | after a first Primary record whose header length covers its size, the walk of the buffer equals the walk of its first headerLength bytes |
| Chain.TrailingBytesIgnored | xrit/packetmanager/__init__.py:170-171 | when the first record of one buffer is a Primary record whose headerLength covers its own size, and both buffers are at least headerLength long, two buffers that agree on the first headerLength bytes decode to the same chain, whatever follows |
| Chain.FrameDecodes | xrit/packetmanager/__init__.py:164-167 | a written record followed by anything has its length as size, is the first record decoded, and the walk continues exactly after it |
| Chain.ChainRoundTrip | xrit/packetmanager/__init__.py:161-172 | a written chain of non-Primary records decodes to exactly those records |
| Chain.HeaderRoundTrip | xrit/packetmanager/__init__.py:161-172 | a Primary record declaring the exact span length, followed by non-Primary records and any payload, decodes to the Primary record and those records and ignores the payload |
| Chain.ThirteenBytePrimaryFails | xrit/packetmanager/__init__.py:175-176 | every buffer whose first record has tag 0 and a size field of 13 (a body of at most 10 bytes) makes the walk fail with a struct error for tag 0, whatever follows |
| HeaderReader.Read | xrit/packetmanager/__init__.py:224-227 | file.read(n) returns the next n bytes, fewer at the end of the file, everything left when n is negative, and advances the cursor past them |
| HeaderReader.ReadBody | xrit/packetmanager/__init__.py:227-275 | the size - 3 bytes after the prefix are read as file.read reads them and decoded under the tag; it succeeds exactly when parseHeader accepts the bytes that read returns, and otherwise fails with a struct error for that tag; on success the cursor ends min(size - 3, bytes left) further on, or at end of file when the count is negative |
| HeaderReader.ReadHeader | xrit/packetmanager/__init__.py:222-275 | at end of file it fails on the tag byte; with 1 or 2 bytes left it fails on the size; with a whole prefix any failure is a struct error for the tag byte; on success it decodes the tag and the bytes after the prefix, and the cursor lands at min(size, bytes left) past the record's start, or at end of file when size < 3 |
| HeaderReader.ReadHeaderAgreesWithChain | xrit/packetmanager/__init__.py:224-227 | readHeader at the start of a buffer yields getHeaderData's first record and stops where its span ends; for size < 3 it takes the rest of the buffer as the body |
| HeaderReader.ReadHeaderOfFrame | xrit/packetmanager/__init__.py:222-275 | readHeader on a written record yields that record and moves exactly past its frame |
| HeaderReader.ReadBodyShift | xrit/packetmanager/__init__.py:227-275 | reading and decoding a body depends only on the bytes from the cursor on |
| HeaderReader.ReadHeaderShift | xrit/packetmanager/__init__.py:222-227 | readHeader depends only on the bytes from the cursor on |
| Files.HeaderTuple | xrit/packetmanager/__init__.py:229-275 | readHeader returns a tuple for exactly the mapped tags, starting with the tag and having at least two entries; an unmapped tag gives a bare integer |
| Files.FourTuples | xrit/packetmanager/__init__.py:229-275 | exactly the Primary and Rice records come back as 4-tuples; the third entry is headerLength or pixel |
| Files.HeaderLengthAsWritten | xrit/packetmanager/__init__.py:127-129 | the four-name unpack succeeds exactly when readHeader succeeds with a Primary or a Rice record |
| Files.HeaderLength | xrit/packetmanager/__init__.py:127-129 | the intended reading: a header length exists exactly when readHeader succeeds with a Primary record |
| Files.HeaderLengthReadings | xrit/packetmanager/__init__.py:127-129 | the two readings agree unless the first record is a Rice record; then the intended one has none and the as-written one has the pixel count |
| Files.DataSectionAsWritten | xrit/packetmanager/__init__.py:127-134 | loadData as written returns a suffix of the file, |file| - min(h, |file|) long, exactly when the unpack succeeds |
| Files.DataSection | xrit/packetmanager/__init__.py:133-134 | the data section is the suffix after the header length, empty past the end, present exactly when the Primary header length is |
| Files.FileHeaders | xrit/packetmanager/__init__.py:86-94 | parseFile walks the header span exactly when the Primary header length is read |
| Files.FileHeadersAreTheChain | xrit/packetmanager/__init__.py:92-94 | when the file opens with a Primary record whose size is at least 3 and whose headerLength covers that size, walking the first headerLength bytes gives what walking the whole file gives |
| Files.EncodedFileSplits | xrit/packetmanager/__init__.py:86-134 | a written Primary record declaring the exact length of the header span, followed by non-Primary records and a payload, splits back into that header length, those records and that payload, whatever data length is declared |
| Files.RiceSections | xrit/packetmanager/__init__.py:127-134 | after a first Rice record, as written the header length is the pixel count and the data starts there, while the intended reading finds no header length, data or headers |
| Files.RiceFirstAsWritten | xrit/packetmanager/__init__.py:267-269 | as written, a file that opens with a written Rice record has the pixel count as header length and its data section starts there |
| Files.RiceFirstCorrected | xrit/packetmanager/__init__.py:127-134 | the intended reading rejects a file that opens with a Rice record |
| Files.RiceFirstFile | xrit/packetmanager/__init__.py:267-269 | the nine-byte file 83 00 07 12 34 02 09 AA BB is read as written with header length 2 and data from byte 2 on, and is rejected by the intended reading |

## Left out

- `printHeaders`, the name tables (`NOAA_PRODUCT_ID`, `FILE_TYPE_CODE_NAME`, `COMPRESSION_TYPE_NAME`) and `datetime` formatting: presentation only. The timestamp is kept as an integer millisecond offset.
- `xrit/__init__.py` (command line handling) is not part of this model.
- File I/O:
  - `open`, `seek`, `tell` and `close` are left out; a file is its byte sequence.
  - `readHeader` reads through a cursor over that sequence.
  - `dumpData`'s 4096-byte copy loop is left out. It writes the same bytes `loadData` returns. Both go through the same four-name unpack, so as written both are `Files.DataSectionAsWritten`; `Files.DataSection` is the Primary-only reading.
  - The premature-end message is left out; it cannot trigger on a file that does not change while it is read.
- `manageFile`'s search for the Annotation record and the rename: a loop of `readHeader` calls and an `os.rename` side effect. Only its first, shared step is modelled, by `Files.HeaderLengthAsWritten`.
- The `print` in the `except:` branches is left out. Its control flow is kept: the function returns None.
- `Chain.DecodeChain`: the loop that never ends is a `Diverges` value, not a non-terminating function.
- `HeaderReader.ReadHeader`: the value is a `Record` rather than the Python tuple. `Files.HeaderTuple` gives the tuple shape where the tuple's arity matters.
- `Files.FileHeaders`: uses the intended header length; a Rice-first file would be walked over its first pixel-count bytes as written.
- Text decoding of opaque bodies and any DCS payload decoding: the source keeps these bodies as byte strings and has no DCS decoder.

## Findings

| source | as written | input that shows it | evidently intended | confidence | as-written member | corrected member |
|---|---|---|---|---|---|---|
| xrit/packetmanager/__init__.py:127-129 | the four-name unpack of readHeader's result accepts any 4-tuple, and the Rice compression record (tag 131) also returns one | the file 83 00 07 12 34 02 09 AA BB: a Rice record with pixel count 2 is taken as a Primary record with header length 2, so the data section starts inside the Rice record | only a Primary record (tag 0) gives the header length; any other first record takes the "Header 0 is corrupted" path | not executed | Files.RiceFirstAsWritten | Files.RiceFirstCorrected |

=== FILE: bytes.dfy ===
/**
  Bytes and fixed-width unsigned integers, and the big-endian reading of a
  byte string as an unsigned number. Every multi-byte integer of the xRIT
  header chain is stored most significant byte first.
 */
module Bytes {

  type byte = b: int | 0 <= b < 0x100
  type u16 = x: int | 0 <= x < 0x1_0000
  type u32 = x: int | 0 <= x < 0x1_0000_0000
  type u64 = x: int | 0 <= x < 0x1_0000_0000_0000_0000

  /** 256 to the power k: one more than the largest value k bytes can hold. */
  function Pow256(k: nat): (p: nat)
    ensures p > 0
  {
    if k == 0 then 1 else 0x100 * Pow256(k - 1)
  }

  /** The widths the header layouts use, as concrete bounds. */
  lemma Pow256Widths()
    ensures Pow256(1) == 0x100
    ensures Pow256(2) == 0x1_0000
    ensures Pow256(4) == 0x1_0000_0000
    ensures Pow256(8) == 0x1_0000_0000_0000_0000
  {
    assert Pow256(1) == 0x100;
    assert Pow256(2) == 0x1_0000;
    assert Pow256(3) == 0x100_0000;
    assert Pow256(4) == 0x1_0000_0000;
    assert Pow256(5) == 0x100_0000_0000;
    assert Pow256(6) == 0x1_0000_0000_0000;
    assert Pow256(7) == 0x100_0000_0000_0000;
  }

  /** The unsigned value of `s` read big-endian: the first byte is the most significant. */
  function BeUint(s: seq<byte>): (n: nat)
    ensures n < Pow256(|s|)
  {
    if |s| == 0 then 0 else BeUint(s[..|s| - 1]) * 0x100 + s[|s| - 1]
  }

  /** A single byte read big-endian is that byte. */
  lemma BeUintOfByte(b: byte)
    ensures BeUint([b]) == b
  {
    assert [b][..0] == [];
  }

  /** The k-byte big-endian representation of n. */
  function BeBytes(n: nat, k: nat): (s: seq<byte>)
    requires n < Pow256(k)
    ensures |s| == k
  {
    if k == 0 then [] else BeBytes(n / 0x100, k - 1) + [n % 0x100]
  }

  /** Reading back a k-byte representation gives the number that was written. */
  lemma {:induction false} BeUintOfBeBytes(n: nat, k: nat)
    requires n < Pow256(k)
    ensures BeUint(BeBytes(n, k)) == n
  {
    if k > 0 {
      var s := BeBytes(n, k);
      assert s[..k - 1] == BeBytes(n / 0x100, k - 1);
      BeUintOfBeBytes(n / 0x100, k - 1);
    }
  }

  /** Every byte string is the representation of its own value: big-endian reading loses nothing. */
  lemma {:induction false} BeBytesOfBeUint(s: seq<byte>)
    ensures BeBytes(BeUint(s), |s|) == s
  {
    if |s| > 0 {
      var prefix := s[..|s| - 1];
      BeBytesOfBeUint(prefix);
      var n := BeUint(s);
      assert n / 0x100 == BeUint(prefix);
      assert n % 0x100 == s[|s| - 1];
      assert s == prefix + [s[|s| - 1]];
    }
  }
}

=== FILE: chain.dfy ===
/**
  The header-chain walker `getHeaderData`. Each record starts with a tag
  byte and a big-endian u16 size that counts the 3 prefix bytes too; the
  body is the rest of the record's span, and the walk advances by the size.
  A Primary record (tag 0) cuts what is left of the buffer so that the walk
  stays inside the header length it declares.

  `DecodeChain` follows the Python loop on the shrinking remainder, with
  Python's slice semantics. `DecodeAt` is an independent reference walk
  over absolute offsets of the original buffer, which makes the order of
  the records and the bytes each one reads explicit. `EncodeChain` writes
  records back as a chain.
 */
module Chain {
  import opened Bytes
  import opened Results
  import opened Slices
  import opened Records

  /** Tag byte plus the u16 size. */
  const PrefixLength: nat := 3

  /** The declared size of the record at the front of buf: big-endian bytes 1 and 2. */
  function FrameSize(buf: seq<byte>): u16
    requires |buf| >= PrefixLength
  {
    Pow256Widths();
    BeUint(buf[1..3])
  }

  /** The size field is byte 1 times 256 plus byte 2. */
  lemma FrameSizeBytes(buf: seq<byte>)
    requires |buf| >= PrefixLength
    ensures FrameSize(buf) == buf[1] as int * 0x100 + buf[2] as int
  {
    assert buf[1..3][..1] == [buf[1]];
    BeUintOfByte(buf[1]);
  }

  /** data[3:size]: the body of the first record, empty when size <= 3 and cut short when the
      buffer ends before size bytes. */
  function FrameBody(buf: seq<byte>): (body: seq<byte>)
    requires |buf| >= PrefixLength
    ensures body == buf[PrefixLength..Max(PrefixLength, Min(FrameSize(buf), |buf|))]
  {
    Range(buf, PrefixLength, FrameSize(buf))
  }

  /** The first record of buf, decoded from its tag byte and body. */
  function FirstRecord(buf: seq<byte>): Result<Record, DecodeError>
    requires |buf| >= PrefixLength
  {
    DecodeRecord(buf[0], FrameBody(buf))
  }

  /** What is left to walk after the first record: data[size:], further cut to
      data[:headerLength - size] when the record is the Primary one. */
  function Remaining(buf: seq<byte>, rec: Record): (rest: seq<byte>)
    requires |buf| >= PrefixLength
    ensures |rest| <= |buf| - Min(FrameSize(buf), |buf|)
    ensures rest == From(buf, FrameSize(buf))[..|rest|]
    ensures !rec.Primary? ==> rest == From(buf, FrameSize(buf))
    ensures rec.Primary? && rec.headerLength >= FrameSize(buf) ==> |rest| <= rec.headerLength - FrameSize(buf)
  {
    var size := FrameSize(buf);
    var rest := From(buf, size);
    if rec.Primary? then UpTo(rest, rec.headerLength - size) else rest
  }

  /** getHeaderData(data): the records of buf in order, or how the walk fails. */
  function DecodeChain(buf: seq<byte>): (r: Result<seq<Record>, DecodeError>)
    ensures |buf| == 0 ==> r == Success([])
    ensures 0 < |buf| < PrefixLength ==> r == Failure(ShortSizeField)
    ensures r.Success? ==> |r.value| <= |buf|
    ensures r.Success? && |buf| > 0 ==> |r.value| > 0 && FirstRecord(buf) == Success(r.value[0])
    decreases |buf|
  {
    if |buf| == 0 then Success([])
    else if |buf| < PrefixLength then Failure(ShortSizeField)
    else
      var rec :- FirstRecord(buf);
      if FrameSize(buf) == 0 then Failure(Diverges)
      else
        var tail :- DecodeChain(Remaining(buf, rec));
        Success([rec] + tail)
  }

  /** A decoded record and the offset of its tag byte in the walked buffer. */
  datatype Located = Located(offset: nat, record: Record)

  function RecordsOf(ls: seq<Located>): (rs: seq<Record>)
    ensures |rs| == |ls|
  {
    if |ls| == 0 then [] else [ls[0].record] + RecordsOf(ls[1..])
  }

  /** Where the window ends after a Primary record: the Python slice data[:k] applied to the
      window [start, hi). */
  function ClampEnd(start: nat, hi: nat, k: int): (end: nat)
    requires start <= hi
    ensures start <= end <= hi
  {
    if 0 <= k then Min(start + k, hi) else Max(start, hi + k)
  }

  /** Where the window ends after a record of the given size that ends at `end`: cut by a
      Primary record, unchanged otherwise. */
  function NextHi(end: nat, hi: nat, rec: Record, size: nat): (hi': nat)
    requires end <= hi
    ensures end <= hi' <= hi
  {
    if rec.Primary? then ClampEnd(end, hi, rec.headerLength - size) else hi
  }

  /** The declared size of the record whose tag byte is at offset lo. */
  function SizeAt(buf: seq<byte>, lo: nat): u16
    requires lo + PrefixLength <= |buf|
  {
    Pow256Widths();
    BeUint(buf[lo + 1..lo + 3])
  }

  /** Where the span of the record at lo ends inside the window [lo, hi). */
  function EndAt(buf: seq<byte>, lo: nat, hi: nat): (end: nat)
    requires lo + PrefixLength <= hi <= |buf|
    ensures lo <= end <= hi
  {
    Min(lo + SizeAt(buf, lo), hi)
  }

  /** The record at lo, decoded from the tag byte and the bytes from lo + 3 to the span's end. */
  function RecordAt(buf: seq<byte>, lo: nat, hi: nat): Result<Record, DecodeError>
    requires lo + PrefixLength <= hi <= |buf|
  {
    DecodeRecord(buf[lo], buf[lo + PrefixLength..Max(lo + PrefixLength, EndAt(buf, lo, hi))])
  }

  /** The walk over the window [lo, hi) of buf, by absolute offsets. */
  function DecodeAt(buf: seq<byte>, lo: nat, hi: nat): (r: Result<seq<Located>, DecodeError>)
    requires lo <= hi <= |buf|
    ensures r.Success? ==> forall i :: 0 <= i < |r.value| ==>
      lo <= r.value[i].offset < hi && r.value[i].record.Tag() == buf[r.value[i].offset]
    ensures r.Success? ==> forall i, j :: 0 <= i < j < |r.value| ==> r.value[i].offset < r.value[j].offset
    decreases hi - lo
  {
    if lo == hi then Success([])
    else if hi - lo < PrefixLength then Failure(ShortSizeField)
    else
      var rec :- RecordAt(buf, lo, hi);
      if SizeAt(buf, lo) == 0 then Failure(Diverges)
      else
        var end := EndAt(buf, lo, hi);
        var tail :- DecodeAt(buf, end, NextHi(end, hi, rec, SizeAt(buf, lo)));
        Success([Located(lo, rec)] + tail)
  }

  /** The located records with their offsets dropped, keeping a failure as it is. */
  function Unlocate(r: Result<seq<Located>, DecodeError>): Result<seq<Record>, DecodeError>
  {
    match r
    case Success(ls) => Success(RecordsOf(ls))
    case Failure(e) => Failure(e)
  }

  /** The Python walk over a slice of a buffer is the absolute-offset walk over that window: the
      records come out in buffer order, each one's tag is the byte at its offset, and no byte
      outside the window is read. */
  lemma {:induction false} DecodeChainWindow(buf: seq<byte>, lo: nat, hi: nat)
    requires lo <= hi <= |buf|
    ensures DecodeChain(buf[lo..hi]) == Unlocate(DecodeAt(buf, lo, hi))
    decreases hi - lo
  {
    if hi - lo >= PrefixLength {
      WindowFirstRecord(buf, lo, hi);
      var rec := RecordAt(buf, lo, hi);
      if rec.Success? && SizeAt(buf, lo) != 0 {
        var end := EndAt(buf, lo, hi);
        var hi' := NextHi(end, hi, rec.value, SizeAt(buf, lo));
        WindowRemaining(buf, lo, hi, rec.value);
        DecodeChainWindow(buf, end, hi');
        var tail := DecodeAt(buf, end, hi');
        if tail.Success? {
          assert RecordsOf([Located(lo, rec.value)] + tail.value) == [rec.value] + RecordsOf(tail.value);
        }
      }
    }
  }

  /** The first record of a window is read at the window's absolute offsets. */
  lemma WindowFirstRecord(buf: seq<byte>, lo: nat, hi: nat)
    requires lo + PrefixLength <= hi <= |buf|
    ensures FrameSize(buf[lo..hi]) == SizeAt(buf, lo)
    ensures FirstRecord(buf[lo..hi]) == RecordAt(buf, lo, hi)
  {
    var w := buf[lo..hi];
    SliceOfSlice(buf, lo, hi, 1, 3);
    WindowFrameBody(buf, lo, hi);
    assert w[0] == buf[lo];
  }

  lemma WindowFrameBody(buf: seq<byte>, lo: nat, hi: nat)
    requires lo + PrefixLength <= hi <= |buf|
    requires FrameSize(buf[lo..hi]) == SizeAt(buf, lo)
    ensures FrameBody(buf[lo..hi]) == buf[lo + PrefixLength..Max(lo + PrefixLength, EndAt(buf, lo, hi))]
  {
    var w := buf[lo..hi];
    var bodyEnd := Max(lo + PrefixLength, EndAt(buf, lo, hi));
    assert FrameBody(w) == w[PrefixLength..bodyEnd - lo];
    SliceOfSlice(buf, lo, hi, PrefixLength, bodyEnd - lo);
  }

  /** What a window leaves to walk after its first record is again a window of buf. */
  lemma WindowRemaining(buf: seq<byte>, lo: nat, hi: nat, rec: Record)
    requires lo + PrefixLength <= hi <= |buf|
    ensures Remaining(buf[lo..hi], rec)
      == buf[EndAt(buf, lo, hi)..NextHi(EndAt(buf, lo, hi), hi, rec, SizeAt(buf, lo))]
  {
    var w := buf[lo..hi];
    SliceOfSlice(buf, lo, hi, 1, 3);
    var size := SizeAt(buf, lo);
    var end := EndAt(buf, lo, hi);
    SliceOfSlice(buf, lo, hi, end - lo, hi - lo);
    assert From(w, size) == buf[end..hi];
    if rec.Primary? {
      var k := rec.headerLength - size;
      assert UpTo(buf[end..hi], k) == buf[end..ClampEnd(end, hi, k)];
    }
  }

  /** Two records that follow each other in a walk: the second starts where the first's declared
      size ends, and the first is decoded from its tag byte and the bytes of its span after the
      prefix. */
  predicate Adjacent(buf: seq<byte>, a: Located, b: Located)
  {
    && a.offset + PrefixLength <= |buf|
    && b.offset == a.offset + SizeAt(buf, a.offset)
    && b.offset <= |buf|
    && SpanRecord(buf, a.offset, b.offset) == Success(a.record)
  }

  /** The record with its tag byte at lo whose span ends at end, decoded from the bytes after its
      prefix (none when the span is shorter than the prefix). */
  function SpanRecord(buf: seq<byte>, lo: nat, end: nat): Result<Record, DecodeError>
    requires lo + PrefixLength <= |buf| && end <= |buf|
  {
    DecodeRecord(buf[lo], buf[lo + PrefixLength..Max(lo + PrefixLength, end)])
  }

  /** A successful walk over a non-empty window is its first record followed by the walk of what
      that record leaves. */
  lemma DecodeAtStep(buf: seq<byte>, lo: nat, hi: nat)
    requires lo < hi <= |buf| && DecodeAt(buf, lo, hi).Success?
    ensures lo + PrefixLength <= hi && RecordAt(buf, lo, hi).Success? && SizeAt(buf, lo) != 0
    ensures var end := EndAt(buf, lo, hi);
      var hi' := NextHi(end, hi, RecordAt(buf, lo, hi).value, SizeAt(buf, lo));
      && DecodeAt(buf, end, hi').Success?
      && DecodeAt(buf, lo, hi).value == [Located(lo, RecordAt(buf, lo, hi).value)] + DecodeAt(buf, end, hi').value
  {
  }

  /** When another record follows inside the window, the first one's span ends at its declared
      size. */
  lemma FirstAdjacent(buf: seq<byte>, lo: nat, hi: nat, next: Located)
    requires lo + PrefixLength <= hi <= |buf| && RecordAt(buf, lo, hi).Success?
    requires next.offset == EndAt(buf, lo, hi) < hi
    ensures Adjacent(buf, Located(lo, RecordAt(buf, lo, hi).value), next)
  {
    assert RecordAt(buf, lo, hi) == SpanRecord(buf, lo, EndAt(buf, lo, hi));
  }

  /** A walk over [lo, hi) reads length-prefixed spans back to back: its first record is at lo
      and every later one starts where the previous one's declared size ends. */
  lemma {:induction false} DecodeAtSpans(buf: seq<byte>, lo: nat, hi: nat)
    requires lo <= hi <= |buf| && DecodeAt(buf, lo, hi).Success?
    ensures var ls := DecodeAt(buf, lo, hi).value;
      && (|ls| > 0 ==> ls[0].offset == lo)
      && (forall i :: 0 <= i < |ls| - 1 ==> Adjacent(buf, ls[i], ls[i + 1]))
    decreases hi - lo
  {
    if lo < hi {
      DecodeAtStep(buf, lo, hi);
      var first := Located(lo, RecordAt(buf, lo, hi).value);
      var end := EndAt(buf, lo, hi);
      var hi' := NextHi(end, hi, first.record, SizeAt(buf, lo));
      DecodeAtSpans(buf, end, hi');
      var tail := DecodeAt(buf, end, hi').value;
      var ls := [first] + tail;
      if |tail| > 0 {
        FirstAdjacent(buf, lo, hi, tail[0]);
      }
      forall i | 0 <= i < |ls| - 1
        ensures Adjacent(buf, ls[i], ls[i + 1])
      {
        if i > 0 {
          assert ls[i] == tail[i - 1] && ls[i + 1] == tail[i];
        }
      }
    }
  }

  /** getHeaderData keeps buffer order: the i-th decoded record is the record whose tag byte sits
      at the i-th offset of the buffer, the first at offset 0 and each next one where the previous
      record's declared size ends, so the records come from consecutive length-prefixed spans. */
  lemma ChainInBufferOrder(buf: seq<byte>)
    requires DecodeChain(buf).Success?
    ensures DecodeAt(buf, 0, |buf|).Success?
    ensures var rs := DecodeChain(buf).value; var ls := DecodeAt(buf, 0, |buf|).value;
      && |rs| == |ls|
      && (forall i :: 0 <= i < |rs| ==> rs[i] == ls[i].record && rs[i].Tag() == buf[ls[i].offset])
      && (forall i, j :: 0 <= i < j < |ls| ==> ls[i].offset < ls[j].offset)
      && (|ls| > 0 ==> ls[0].offset == 0)
      && (forall i :: 0 <= i < |ls| - 1 ==> Adjacent(buf, ls[i], ls[i + 1]))
  {
    assert buf[0..|buf|] == buf;
    DecodeChainWindow(buf, 0, |buf|);
    RecordsOfIndex(DecodeAt(buf, 0, |buf|).value);
    DecodeAtSpans(buf, 0, |buf|);
  }

  lemma {:induction false} RecordsOfIndex(ls: seq<Located>)
    ensures forall i :: 0 <= i < |ls| ==> RecordsOf(ls)[i] == ls[i].record
  {
    if |ls| > 0 {
      RecordsOfIndex(ls[1..]);
    }
  }

  /** When the chain opens with a Primary record whose header length covers its own size,
      nothing at or beyond that header length is decoded: the walk of buf is the walk of its
      first headerLength bytes. */
  lemma PrimaryBoundsChain(buf: seq<byte>)
    requires |buf| >= PrefixLength
    requires FirstRecord(buf).Success? && FirstRecord(buf).value.Primary?
    requires FirstRecord(buf).value.headerLength >= FrameSize(buf)
    ensures DecodeChain(buf) == DecodeChain(buf[..Min(FirstRecord(buf).value.headerLength, |buf|)])
  {
    PrimaryBounds(buf, FirstRecord(buf).value);
  }

  lemma PrimaryBounds(buf: seq<byte>, rec: Record)
    requires |buf| >= PrefixLength && FirstRecord(buf) == Success(rec) && rec.Primary?
    requires rec.headerLength >= FrameSize(buf)
    ensures DecodeChain(buf) == DecodeChain(buf[..Min(rec.headerLength, |buf|)])
  {
    if rec.headerLength < |buf| {
      PrimaryBoundsInside(buf, rec);
    } else {
      PrimaryBoundsBeyond(buf, rec.headerLength);
    }
  }

  lemma PrimaryBoundsInside(buf: seq<byte>, rec: Record)
    requires |buf| >= PrefixLength && FirstRecord(buf) == Success(rec) && rec.Primary?
    requires FrameSize(buf) <= rec.headerLength < |buf|
    ensures DecodeChain(buf) == DecodeChain(buf[..Min(rec.headerLength, |buf|)])
  {
    var cut := buf[..rec.headerLength];
    PrimaryCutStep(buf, cut, rec);
    SameStepSameChain(buf, cut, rec);
  }

  lemma PrimaryBoundsBeyond(buf: seq<byte>, n: nat)
    requires |buf| <= n
    ensures DecodeChain(buf) == DecodeChain(buf[..Min(n, |buf|)])
  {
    assert buf[..|buf|] == buf;
  }

  /** Two buffers with the same first record, size and remainder decode to the same chain. */
  lemma SameStepSameChain(a: seq<byte>, b: seq<byte>, rec: Record)
    requires |a| >= PrefixLength && |b| >= PrefixLength
    requires FirstRecord(a) == Success(rec) && FirstRecord(b) == Success(rec)
    requires FrameSize(a) == FrameSize(b) && Remaining(a, rec) == Remaining(b, rec)
    ensures DecodeChain(a) == DecodeChain(b)
  {
  }

  lemma PrimaryCutStep(buf: seq<byte>, cut: seq<byte>, rec: Record)
    requires |buf| >= PrefixLength && FirstRecord(buf) == Success(rec) && rec.Primary?
    requires FrameSize(buf) <= rec.headerLength < |buf| && cut == buf[..rec.headerLength]
    ensures |cut| >= PrefixLength && FirstRecord(cut) == Success(rec)
    ensures FrameSize(cut) == FrameSize(buf) && Remaining(cut, rec) == Remaining(buf, rec)
  {
    var h := rec.headerLength;
    PrimarySpan(buf, rec);
    assert buf[..h] == cut[..h];
    SamePrefixSameFirstRecord(buf, cut, h);
    RemainingOfCut(buf, h, rec);
  }

  /** A Primary record that ends inside its buffer spans 16 bytes: a 13-byte body after the prefix. */
  lemma PrimarySpan(buf: seq<byte>, rec: Record)
    requires |buf| >= PrefixLength && FirstRecord(buf) == Success(rec) && rec.Primary?
    requires FrameSize(buf) < |buf|
    ensures FrameSize(buf) == 16
  {
    var size := FrameSize(buf);
    var body := FrameBody(buf);
    assert buf[0] == 0;
    assert FixedBodyLength(0) == Some(13);
    assert |body| == 13;
    assert |body| == Max(PrefixLength, size) - PrefixLength;
  }

  /** Cutting a buffer at the header length of a Primary record at its front leaves the same
      remainder to walk. */
  lemma RemainingOfCut(buf: seq<byte>, n: nat, rec: Record)
    requires PrefixLength <= n <= |buf| && FrameSize(buf) <= n
    requires rec.Primary? && rec.headerLength == n
    ensures Remaining(buf[..n], rec) == Remaining(buf, rec)
  {
    var cut := buf[..n];
    assert cut[1..3] == buf[1..3];
    var size := FrameSize(buf);
    assert FrameSize(cut) == size;
    assert Remaining(buf, rec) == UpTo(buf[size..], n - size) == buf[size..n];
    assert Remaining(cut, rec) == UpTo(cut[size..], n - size) == buf[size..n];
  }

  /** Bytes past the declared header length never change the decoded chain. */
  lemma TrailingBytesIgnored(a: seq<byte>, b: seq<byte>)
    requires |a| >= PrefixLength
    requires FirstRecord(a).Success? && FirstRecord(a).value.Primary?
    requires FirstRecord(a).value.headerLength >= FrameSize(a)
    requires |a| >= FirstRecord(a).value.headerLength && |b| >= FirstRecord(a).value.headerLength
    requires a[..FirstRecord(a).value.headerLength] == b[..FirstRecord(a).value.headerLength]
    ensures DecodeChain(a) == DecodeChain(b)
  {
    var h := FirstRecord(a).value.headerLength;
    SamePrefixSameFirstRecord(a, b, h);
    PrimaryBoundsChain(a);
    PrimaryBoundsChain(b);
    assert a[..h] == b[..h];
  }

  /** Two buffers that agree on a prefix holding the first record's whole span start with the
      same record. */
  lemma SamePrefixSameFirstRecord(a: seq<byte>, b: seq<byte>, n: nat)
    requires PrefixLength <= n <= |a| && n <= |b| && a[..n] == b[..n]
    requires FrameSize(a) <= n
    ensures |b| >= PrefixLength && FrameSize(b) == FrameSize(a)
    ensures FrameBody(b) == FrameBody(a) && FirstRecord(b) == FirstRecord(a)
  {
    assert a[1..3] == a[..n][1..3] == b[..n][1..3] == b[1..3];
    assert a[0] == a[..n][0] == b[..n][0] == b[0];
    var e := Max(PrefixLength, FrameSize(a));
    assert a[PrefixLength..e] == a[..n][PrefixLength..e] == b[..n][PrefixLength..e] == b[PrefixLength..e];
  }

  /** A record fits a chain when it is well formed and its prefix and body fit the u16 size. */
  predicate Encodable(r: Record)
  {
    r.WellFormed() && PrefixLength + |EncodeBody(r)| < 0x1_0000
  }

  /** A record as it appears in a chain: tag, big-endian size including the prefix, body. */
  function EncodeFrame(r: Record): (frame: seq<byte>)
    requires Encodable(r)
    ensures |frame| == PrefixLength + |EncodeBody(r)|
  {
    Pow256Widths();
    [r.Tag()] + BeBytes(PrefixLength + |EncodeBody(r)|, 2) + EncodeBody(r)
  }

  /** The records written one after another. */
  function EncodeChain(rs: seq<Record>): seq<byte>
    requires forall i :: 0 <= i < |rs| ==> Encodable(rs[i])
  {
    if |rs| == 0 then [] else EncodeFrame(rs[0]) + EncodeChain(rs[1..])
  }

  /** The first record of a frame followed by anything is the framed record, and the frame's
      declared size is its length. */
  lemma FrameDecodes(r: Record, tail: seq<byte>)
    requires Encodable(r)
    ensures |EncodeFrame(r) + tail| >= PrefixLength
    ensures FrameSize(EncodeFrame(r) + tail) == |EncodeFrame(r)|
    ensures FirstRecord(EncodeFrame(r) + tail) == Success(r)
    ensures From(EncodeFrame(r) + tail, |EncodeFrame(r)|) == tail
  {
    var buf := EncodeFrame(r) + tail;
    FrameSizeOfFrame(r, tail);
    FrameBodyOfFrame(r, tail);
    assert buf[0] == r.Tag();
    DecodeEncode(r);
    assert buf[|EncodeFrame(r)|..] == tail;
  }

  lemma FrameSizeOfFrame(r: Record, tail: seq<byte>)
    requires Encodable(r)
    ensures FrameSize(EncodeFrame(r) + tail) == |EncodeFrame(r)|
  {
    Pow256Widths();
    var buf := EncodeFrame(r) + tail;
    var n := PrefixLength + |EncodeBody(r)|;
    assert buf[1..3] == BeBytes(n, 2);
    BeUintOfBeBytes(n, 2);
  }

  lemma FrameBodyOfFrame(r: Record, tail: seq<byte>)
    requires Encodable(r) && FrameSize(EncodeFrame(r) + tail) == |EncodeFrame(r)|
    ensures FrameBody(EncodeFrame(r) + tail) == EncodeBody(r)
  {
    var buf := EncodeFrame(r) + tail;
    assert buf[PrefixLength..|EncodeFrame(r)|] == EncodeBody(r);
  }

  /** A chain without Primary records decodes to exactly the records it was written from. */
  lemma {:induction false} ChainRoundTrip(rs: seq<Record>)
    requires forall i :: 0 <= i < |rs| ==> Encodable(rs[i]) && !rs[i].Primary?
    ensures DecodeChain(EncodeChain(rs)) == Success(rs)
  {
    if |rs| > 0 {
      var rest := EncodeChain(rs[1..]);
      FrameDecodes(rs[0], rest);
      ChainRoundTrip(rs[1..]);
      assert rs == [rs[0]] + rs[1..];
    }
  }

  /** A header span that opens with a Primary record declaring the span's exact length decodes
      to its records, whatever bytes follow it: the walk consumes exactly headerLength bytes. */
  lemma HeaderRoundTrip(p: Record, rs: seq<Record>, payload: seq<byte>)
    requires p.Primary? && Encodable(p)
    requires forall i :: 0 <= i < |rs| ==> Encodable(rs[i]) && !rs[i].Primary?
    requires p.headerLength == |EncodeFrame(p)| + |EncodeChain(rs)|
    ensures DecodeChain(EncodeFrame(p) + EncodeChain(rs) + payload) == Success([p] + rs)
  {
    var rest := EncodeChain(rs) + payload;
    var buf := EncodeFrame(p) + rest;
    assert EncodeFrame(p) + EncodeChain(rs) + payload == buf;
    FrameDecodes(p, rest);
    assert Remaining(buf, p) == UpTo(rest, p.headerLength - |EncodeFrame(p)|) == EncodeChain(rs);
    ChainRoundTrip(rs);
  }

  /** A tag-0 record whose size field says 13 holds at most a 10-byte body, which struct.unpack
      of ">BIQ" rejects: the walk fails, whatever follows the record. */
  lemma ThirteenBytePrimaryFails(buf: seq<byte>)
    requires |buf| >= PrefixLength && buf[0] == 0 && FrameSize(buf) == 13
    ensures DecodeChain(buf) == Failure(StructError(0))
  {
    assert |FrameBody(buf)| <= 10;
    assert FirstRecord(buf) == Failure(StructError(0));
  }
}

=== FILE: cursor.dfy ===
/**
  `readHeader`: reading one record through a forward-only cursor over the
  file's bytes. It reads the tag byte, the big-endian u16 size and then
  size - 3 body bytes, and decodes the body with the same layouts as the
  chain walker. Reads follow Python's file.read(n): a read near the end
  returns fewer bytes, and a negative count reads everything that is left.
 */
module HeaderReader {
  import opened Bytes
  import opened Results
  import opened Slices
  import opened Records
  import opened Chain

  /** A read position in a byte source. */
  datatype Cursor = Cursor(source: seq<byte>, pos: nat) {
    predicate Valid()
    {
      pos <= |source|
    }
  }

  /** The bytes a read returns and the cursor after them. */
  datatype Chunk = Chunk(data: seq<byte>, next: Cursor)

  /** A record read from a source and the cursor just past it. */
  datatype Parsed = Parsed(rec: Record, next: Cursor)

  /** f.read(n): the next n bytes, fewer at the end of the source, all that is left when n < 0. */
  function Read(c: Cursor, n: int): (r: Chunk)
    requires c.Valid()
    ensures r.next.pos <= |c.source| && r.next.source == c.source && c.pos <= r.next.pos
    ensures r.data == c.source[c.pos..r.next.pos]
    ensures 0 <= n ==> r.next.pos == c.pos + Min(n, |c.source| - c.pos)
    ensures n < 0 ==> r.next.pos == |c.source|
  {
    var end := if n < 0 then |c.source| else c.pos + Min(n, |c.source| - c.pos);
    Chunk(c.source[c.pos..end], Cursor(c.source, end))
  }

  /** The body read and decode that follow the prefix: `n` more bytes, as file.read(n) returns
      them, decoded under the record's tag. */
  function ReadBody(tag: byte, n: int, c: Cursor): (r: Result<Parsed, DecodeError>)
    requires c.Valid()
    ensures r.Success? ==> r.value.next.source == c.source && c.pos <= r.value.next.pos <= |c.source|
    ensures r.Success? ==> DecodeRecord(tag, c.source[c.pos..r.value.next.pos]) == Success(r.value.rec)
    ensures r.Success? && 0 <= n ==> r.value.next.pos == c.pos + Min(n, |c.source| - c.pos)
    ensures r.Success? && n < 0 ==> r.value.next.pos == |c.source|
    ensures r.Success? <==> DecodeRecord(tag, Read(c, n).data).Success?
    ensures r.Failure? ==> r.error == StructError(tag)
  {
    var body := Read(c, n);
    var rec :- DecodeRecord(tag, body.data);
    Success(Parsed(rec, body.next))
  }

  /** readHeader(f): the record at the cursor and the cursor after it. */
  function ReadHeader(c: Cursor): (r: Result<Parsed, DecodeError>)
    requires c.Valid()
    ensures c.pos == |c.source| ==> r == Failure(NoTagByte)
    ensures c.pos < |c.source| < c.pos + PrefixLength ==> r == Failure(ShortSizeField)
    ensures r.Success? ==> r.value.next.source == c.source
    ensures r.Success? ==> c.pos + PrefixLength <= r.value.next.pos <= |c.source|
    ensures r.Success? ==>
      DecodeRecord(c.source[c.pos], c.source[c.pos + PrefixLength..r.value.next.pos]) == Success(r.value.rec)
    ensures r.Success? && SizeAt(c.source, c.pos) >= PrefixLength ==>
      r.value.next.pos == c.pos + PrefixLength + Min(SizeAt(c.source, c.pos) - PrefixLength, |c.source| - c.pos - PrefixLength)
    ensures r.Success? && SizeAt(c.source, c.pos) < PrefixLength ==> r.value.next.pos == |c.source|
    ensures c.pos + PrefixLength <= |c.source| && r.Failure? ==> r.error == StructError(c.source[c.pos])
  {
    var tag := Read(c, 1);
    if |tag.data| == 0 then Failure(NoTagByte)
    else
      var size := Read(tag.next, 2);
      if |size.data| != 2 then Failure(ShortSizeField)
      else
        assert BeUint(size.data) == SizeAt(c.source, c.pos);
        ReadBody(tag.data[0], BeUint(size.data) - PrefixLength, size.next)
  }

  /** A decoded record paired with a cursor, keeping a failure as it is. */
  function WithCursor(r: Result<Record, DecodeError>, c: Cursor): Result<Parsed, DecodeError>
  {
    match r
    case Success(rec) => Success(Parsed(rec, c))
    case Failure(e) => Failure(e)
  }

  /** readHeader at the start of a buffer decodes the same record as the first step of
      getHeaderData and stops where that record's span ends, whenever the declared size covers
      the 3-byte prefix. For a smaller size the two part ways: the chain walker decodes an empty
      body, while readHeader's negative read takes every remaining byte as the body. */
  lemma ReadHeaderAgreesWithChain(buf: seq<byte>)
    requires |buf| >= PrefixLength
    ensures FrameSize(buf) >= PrefixLength ==>
      ReadHeader(Cursor(buf, 0)) == WithCursor(FirstRecord(buf), Cursor(buf, Min(FrameSize(buf), |buf|)))
    ensures FrameSize(buf) < PrefixLength ==>
      FrameBody(buf) == [] &&
      ReadHeader(Cursor(buf, 0)) == WithCursor(DecodeRecord(buf[0], buf[PrefixLength..]), Cursor(buf, |buf|))
  {
    var c := Cursor(buf, 0);
    var tag := Read(c, 1);
    assert tag.data == [buf[0]];
    var size := Read(tag.next, 2);
    assert size.data == buf[1..3];
    var body := Read(size.next, FrameSize(buf) - PrefixLength);
    if FrameSize(buf) >= PrefixLength {
      assert body.data == FrameBody(buf);
    } else {
      assert body.data == buf[PrefixLength..];
    }
  }

  /** Reading at the start of a written record yields that record and moves the cursor past
      exactly its frame, whatever follows it. With ReadHeaderShift this holds wherever in a
      file the record is written. */
  lemma ReadHeaderOfFrame(r: Record, after: seq<byte>)
    requires Encodable(r)
    ensures var buf := EncodeFrame(r) + after;
      ReadHeader(Cursor(buf, 0)) == Success(Parsed(r, Cursor(buf, |EncodeFrame(r)|)))
  {
    var buf := EncodeFrame(r) + after;
    FrameDecodes(r, after);
    assert Min(FrameSize(buf), |buf|) == |EncodeFrame(r)|;
    ReadHeaderAgreesWithChain(buf);
  }

  /** The cursor's result, moved from a source that starts at offset `at` of src back onto src. */
  function Rebase(r: Result<Parsed, DecodeError>, src: seq<byte>, at: nat): Result<Parsed, DecodeError>
  {
    match r
    case Success(Parsed(rec, c)) => Success(Parsed(rec, Cursor(src, at + c.pos)))
    case Failure(e) => Failure(e)
  }

  /** A read from a source behaves like the same read from the source's suffix at `at`. */
  lemma ReadShift(src: seq<byte>, at: nat, p: nat, n: int)
    requires at + p <= |src|
    ensures Read(Cursor(src, at + p), n).data == Read(Cursor(src[at..], p), n).data
    ensures Read(Cursor(src, at + p), n).next.pos == at + Read(Cursor(src[at..], p), n).next.pos
  {
  }

  /** The body read and decode is the record decoded from the bytes the read returns, placed at
      the cursor the read leaves. */
  lemma ReadBodyUnfold(tag: byte, n: int, c: Cursor)
    requires c.Valid()
    ensures ReadBody(tag, n, c) == WithCursor(DecodeRecord(tag, Read(c, n).data), Read(c, n).next)
  {
  }

  /** Placing a decoded record at a cursor of a suffix and moving it back onto the whole source is
      placing it at the shifted cursor. */
  lemma RebaseWithCursor(d: Result<Record, DecodeError>, part: Cursor, src: seq<byte>, at: nat)
    ensures Rebase(WithCursor(d, part), src, at) == WithCursor(d, Cursor(src, at + part.pos))
  {
  }

  /** The body read and decode behave the same from a source's suffix at `at`. */
  lemma ReadBodyShift(src: seq<byte>, at: nat, p: nat, tag: byte, n: int)
    requires at + p <= |src|
    ensures ReadBody(tag, n, Cursor(src, at + p)) == Rebase(ReadBody(tag, n, Cursor(src[at..], p)), src, at)
  {
    ReadShift(src, at, p, n);
    ReadBodyAgree(tag, n, Cursor(src, at + p), Cursor(src[at..], p), at);
  }

  /** Two reads that return the same bytes, the first ending `at` further on, give the same body
      decode, the first at the shifted cursor. */
  lemma ReadBodyAgree(tag: byte, n: int, whole: Cursor, part: Cursor, at: nat)
    requires whole.Valid() && part.Valid()
    requires Read(whole, n).data == Read(part, n).data
    requires Read(whole, n).next.pos == at + Read(part, n).next.pos
    ensures ReadBody(tag, n, whole) == Rebase(ReadBody(tag, n, part), whole.source, at)
  {
    ReadBodyUnfold(tag, n, whole);
    ReadBodyUnfold(tag, n, part);
    RebaseWithCursor(DecodeRecord(tag, Read(part, n).data), Read(part, n).next, whole.source, at);
  }

  /** With a whole prefix in front of the cursor, readHeader is the body read after it, sized by
      the size field. */
  lemma ReadHeaderUnfold(c: Cursor)
    requires c.Valid() && c.pos + PrefixLength <= |c.source|
    ensures ReadHeader(c) ==
      ReadBody(c.source[c.pos], SizeAt(c.source, c.pos) - PrefixLength, Cursor(c.source, c.pos + PrefixLength))
  {
    var size := Read(Read(c, 1).next, 2);
    assert size.data == c.source[c.pos + 1..c.pos + 3];
  }

  /** readHeader looks only at the bytes from the cursor on. */
  lemma ReadHeaderShift(src: seq<byte>, at: nat)
    requires at <= |src|
    ensures ReadHeader(Cursor(src, at)) == Rebase(ReadHeader(Cursor(src[at..], 0)), src, at)
  {
    if at + PrefixLength <= |src| {
      ReadHeaderShiftInside(src, at);
    }
  }

  /** The tag byte and size field seen from a suffix are those at its start in the source. */
  lemma PrefixShift(src: seq<byte>, at: nat)
    requires at + PrefixLength <= |src|
    ensures src[at..][0] == src[at] && SizeAt(src[at..], 0) == SizeAt(src, at)
  {
    assert src[at..] == src[at..|src|];
    SliceOfSlice(src, at, |src|, 1, 3);
  }

  lemma ReadHeaderShiftInside(src: seq<byte>, at: nat)
    requires at + PrefixLength <= |src|
    ensures ReadHeader(Cursor(src, at)) == Rebase(ReadHeader(Cursor(src[at..], 0)), src, at)
  {
    PrefixShift(src, at);
    ReadBodyShift(src, at, PrefixLength, src[at], SizeAt(src, at) - PrefixLength);
    ReadHeaderAgree(Cursor(src, at), Cursor(src[at..], 0), at);
  }

  /** Two cursors with the same tag byte and size field, whose body reads agree up to a shift of
      `at`, read the same header, the first at the shifted cursor. */
  lemma ReadHeaderAgree(whole: Cursor, part: Cursor, at: nat)
    requires whole.pos + PrefixLength <= |whole.source| && part.pos + PrefixLength <= |part.source|
    requires whole.source[whole.pos] == part.source[part.pos]
    requires SizeAt(whole.source, whole.pos) == SizeAt(part.source, part.pos)
    requires var tag := whole.source[whole.pos]; var n := SizeAt(whole.source, whole.pos) - PrefixLength;
      ReadBody(tag, n, Cursor(whole.source, whole.pos + PrefixLength))
      == Rebase(ReadBody(tag, n, Cursor(part.source, part.pos + PrefixLength)), whole.source, at)
    ensures ReadHeader(whole) == Rebase(ReadHeader(part), whole.source, at)
  {
    ReadHeaderUnfold(whole);
    ReadHeaderUnfold(part);
  }
}

=== FILE: pystruct.dfy ===
/**
  Python's `struct.unpack` for the big-endian, unpadded formats ('>' prefix)
  the header layouts use: unsigned integers of 1, 2, 4 or 8 bytes
  (B, H, I, Q) and fixed-length byte strings (Ns). Unpacking succeeds only
  when the data is exactly as long as the format, as `struct.unpack` does;
  `Pack` is its inverse.
 */
module Struct {
  import opened Bytes
  import opened Results
  import opened Slices

  /** One field of a format: a `width`-byte unsigned integer or a `width`-byte string. */
  datatype Field = UInt(width: nat) | Chars(width: nat)

  /** One unpacked value. */
  datatype Value = Int(n: nat) | Str(bytes: seq<byte>)

  /** struct.calcsize: the number of bytes the format occupies. */
  function Size(fmt: seq<Field>): nat
  {
    if |fmt| == 0 then 0 else fmt[0].width + Size(fmt[1..])
  }

  /** v is a value field f can hold. */
  predicate Fits(f: Field, v: Value)
  {
    match f
    case UInt(w) => v.Int? && v.n < Pow256(w)
    case Chars(w) => v.Str? && |v.bytes| == w
  }

  /** vs has one value per field of fmt, each of which that field can hold. */
  predicate Conforms(fmt: seq<Field>, vs: seq<Value>)
  {
    |vs| == |fmt| && forall i :: 0 <= i < |fmt| ==> Fits(fmt[i], vs[i])
  }

  function DecodeField(f: Field, s: seq<byte>): (v: Value)
    requires |s| == f.width
    ensures Fits(f, v)
  {
    match f
    case UInt(_) => Int(BeUint(s))
    case Chars(_) => Str(s)
  }

  function EncodeField(f: Field, v: Value): (s: seq<byte>)
    requires Fits(f, v)
    ensures |s| == f.width
  {
    match f
    case UInt(w) => BeBytes(v.n, w)
    case Chars(_) => v.bytes
  }

  /** The fields of fmt read one after the other from data, which is exactly as long as fmt. */
  function UnpackExact(fmt: seq<Field>, data: seq<byte>): (vs: seq<Value>)
    requires |data| == Size(fmt)
    ensures Conforms(fmt, vs)
    decreases |fmt|
  {
    if |fmt| == 0 then []
    else
      var w := fmt[0].width;
      [DecodeField(fmt[0], data[..w])] + UnpackExact(fmt[1..], data[w..])
  }

  /** struct.unpack(fmt, data): fails unless data is exactly Size(fmt) bytes long. */
  function Unpack(fmt: seq<Field>, data: seq<byte>): (r: Option<seq<Value>>)
    ensures r.Some? <==> |data| == Size(fmt)
    ensures r.Some? ==> Conforms(fmt, r.value)
  {
    if |data| == Size(fmt) then Some(UnpackExact(fmt, data)) else None
  }

  /** struct.pack(fmt, values...): the fields written one after the other. */
  function Pack(fmt: seq<Field>, vs: seq<Value>): (data: seq<byte>)
    requires Conforms(fmt, vs)
    ensures |data| == Size(fmt)
    decreases |fmt|
  {
    if |fmt| == 0 then []
    else EncodeField(fmt[0], vs[0]) + Pack(fmt[1..], vs[1..])
  }

  lemma {:induction false} DecodeEncodeField(f: Field, v: Value)
    requires Fits(f, v)
    ensures DecodeField(f, EncodeField(f, v)) == v
  {
    if f.UInt? {
      BeUintOfBeBytes(v.n, f.width);
    }
  }

  lemma {:induction false} EncodeDecodeField(f: Field, s: seq<byte>)
    requires |s| == f.width
    ensures EncodeField(f, DecodeField(f, s)) == s
  {
    if f.UInt? {
      BeBytesOfBeUint(s);
    }
  }

  /** Unpacking what was packed gives back the values. */
  lemma {:induction false} UnpackPack(fmt: seq<Field>, vs: seq<Value>)
    requires Conforms(fmt, vs)
    ensures Unpack(fmt, Pack(fmt, vs)) == Some(vs)
  {
    UnpackExactPack(fmt, vs);
  }

  lemma {:induction false} UnpackExactPack(fmt: seq<Field>, vs: seq<Value>)
    requires Conforms(fmt, vs)
    ensures UnpackExact(fmt, Pack(fmt, vs)) == vs
    decreases |fmt|
  {
    if |fmt| > 0 {
      var data := Pack(fmt, vs);
      var head := EncodeField(fmt[0], vs[0]);
      var w := fmt[0].width;
      assert data == head + Pack(fmt[1..], vs[1..]);
      assert data[..w] == head;
      assert data[w..] == Pack(fmt[1..], vs[1..]);
      DecodeEncodeField(fmt[0], vs[0]);
      assert Conforms(fmt[1..], vs[1..]) by {
        forall i | 0 <= i < |fmt[1..]|
          ensures Fits(fmt[1..][i], vs[1..][i])
        {
          assert Fits(fmt[i + 1], vs[i + 1]);
        }
      }
      UnpackExactPack(fmt[1..], vs[1..]);
      assert vs == [vs[0]] + vs[1..];
    }
  }

  /** Packing what was unpacked gives back the bytes: unpacking loses nothing. */
  lemma {:induction false} PackUnpack(fmt: seq<Field>, data: seq<byte>)
    requires |data| == Size(fmt)
    ensures Pack(fmt, UnpackExact(fmt, data)) == data
    decreases |fmt|
  {
    if |fmt| > 0 {
      var w := fmt[0].width;
      var vs := UnpackExact(fmt, data);
      assert vs[0] == DecodeField(fmt[0], data[..w]);
      assert vs[1..] == UnpackExact(fmt[1..], data[w..]);
      EncodeDecodeField(fmt[0], data[..w]);
      PackUnpack(fmt[1..], data[w..]);
      assert data == data[..w] + data[w..];
    }
  }

  /** calcsize of two formats written one after the other is the sum of their sizes. */
  lemma {:induction false} SizeConcat(a: seq<Field>, b: seq<Field>)
    ensures Size(a + b) == Size(a) + Size(b)
    decreases |a|
  {
    if |a| == 0 {
      assert a + b == b;
    } else {
      assert (a + b)[1..] == a[1..] + b;
      SizeConcat(a[1..], b);
    }
  }

  /** Where field i of fmt starts: the calcsize of the fields before it. */
  function Offset(fmt: seq<Field>, i: nat): nat
    requires i <= |fmt|
  {
    Size(fmt[..i])
  }

  /** The first field starts at byte 0, each later one where the previous one ends, and the
      format ends where its last field does. */
  lemma OffsetStep(fmt: seq<Field>, i: nat)
    requires i < |fmt|
    ensures Offset(fmt, 0) == 0
    ensures Offset(fmt, i + 1) == Offset(fmt, i) + fmt[i].width
    ensures Offset(fmt, i + 1) <= Size(fmt)
  {
    assert fmt[..0] == [];
    assert fmt[..i + 1] == fmt[..i] + [fmt[i]];
    SizeConcat(fmt[..i], [fmt[i]]);
    assert [fmt[i]][1..] == [];
    assert fmt == fmt[..i + 1] + fmt[i + 1..];
    SizeConcat(fmt[..i + 1], fmt[i + 1..]);
  }

  /** Past the first field, offsets are those of the remaining fields shifted by its width. */
  lemma OffsetTail(fmt: seq<Field>, i: nat)
    requires 0 < i <= |fmt|
    ensures Offset(fmt, i) == fmt[0].width + Offset(fmt[1..], i - 1)
  {
    assert fmt[..i] == [fmt[0]] + fmt[1..][..i - 1];
    SizeConcat([fmt[0]], fmt[1..][..i - 1]);
    assert [fmt[0]][1..] == [];
  }

  /** Past the first field, unpacking is unpacking the remaining fields from the remaining bytes. */
  lemma UnpackTail(fmt: seq<Field>, data: seq<byte>, i: nat)
    requires |data| == Size(fmt) && 0 < i < |fmt|
    ensures fmt[0].width <= |data| && |data[fmt[0].width..]| == Size(fmt[1..])
    ensures UnpackExact(fmt, data)[i] == UnpackExact(fmt[1..], data[fmt[0].width..])[i - 1]
  {
    var w := fmt[0].width;
    assert UnpackExact(fmt, data) == [DecodeField(fmt[0], data[..w])] + UnpackExact(fmt[1..], data[w..]);
  }

  /** The bytes of field i: its width of bytes at its offset. */
  function FieldBytes(fmt: seq<Field>, data: seq<byte>, i: nat): (s: seq<byte>)
    requires |data| == Size(fmt) && i < |fmt|
    ensures |s| == fmt[i].width
  {
    OffsetStep(fmt, i);
    data[Offset(fmt, i)..Offset(fmt, i) + fmt[i].width]
  }

  /** Past the first field, a field's bytes are its bytes among the remaining fields. */
  lemma FieldBytesTail(fmt: seq<Field>, data: seq<byte>, i: nat)
    requires |data| == Size(fmt) && 0 < i < |fmt|
    ensures fmt[0].width <= |data| && |data[fmt[0].width..]| == Size(fmt[1..])
    ensures FieldBytes(fmt, data, i) == FieldBytes(fmt[1..], data[fmt[0].width..], i - 1)
  {
    var w := fmt[0].width;
    OffsetTail(fmt, i);
    OffsetStep(fmt, i);
    var o := Offset(fmt[1..], i - 1);
    var e := o + fmt[i].width;
    OffsetStep(fmt[1..], i - 1);
    SliceOfSlice(data, w, |data|, o, e);
  }

  /** struct.unpack reads field i from the field's width of bytes at its offset. */
  lemma {:induction false} UnpackField(fmt: seq<Field>, data: seq<byte>, i: nat)
    requires |data| == Size(fmt) && i < |fmt|
    ensures UnpackExact(fmt, data)[i] == DecodeField(fmt[i], FieldBytes(fmt, data, i))
    decreases i
  {
    if i == 0 {
      OffsetStep(fmt, 0);
    } else {
      UnpackTail(fmt, data, i);
      FieldBytesTail(fmt, data, i);
      UnpackField(fmt[1..], data[fmt[0].width..], i - 1);
      assert fmt[1..][i - 1] == fmt[i];
    }
  }

  /** An integer field at a known offset reads as the big-endian value of its bytes there. */
  lemma UIntFieldAt(fmt: seq<Field>, data: seq<byte>, i: nat, lo: nat)
    requires |data| == Size(fmt) && i < |fmt| && fmt[i].UInt? && Offset(fmt, i) == lo
    ensures lo + fmt[i].width <= |data|
    ensures UnpackExact(fmt, data)[i] == Int(BeUint(data[lo..lo + fmt[i].width]))
  {
    OffsetStep(fmt, i);
    UnpackField(fmt, data, i);
  }

  /** A string field at a known offset reads as its bytes there. */
  lemma CharsFieldAt(fmt: seq<Field>, data: seq<byte>, i: nat, lo: nat)
    requires |data| == Size(fmt) && i < |fmt| && fmt[i].Chars? && Offset(fmt, i) == lo
    ensures lo + fmt[i].width <= |data|
    ensures UnpackExact(fmt, data)[i] == Str(data[lo..lo + fmt[i].width])
  {
    OffsetStep(fmt, i);
    UnpackField(fmt, data, i);
  }

  /** A one-byte integer field at a known offset reads as the byte there. */
  lemma ByteFieldAt(fmt: seq<Field>, data: seq<byte>, i: nat, lo: nat)
    requires |data| == Size(fmt) && i < |fmt| && fmt[i] == UInt(1) && Offset(fmt, i) == lo
    ensures lo < |data|
    ensures UnpackExact(fmt, data)[i] == Int(data[lo])
  {
    UIntFieldAt(fmt, data, i, lo);
    assert data[lo..lo + 1] == [data[lo]];
    BeUintOfByte(data[lo]);
  }
}

=== FILE: records.dfy ===
/**
  The typed header records of an LRIT/HRIT file and the decoder that turns a
  (tag, body) pair into one of them, as `parseHeader` does. Fixed-layout
  tags go through big-endian `struct.unpack` and fail unless the body has
  exactly the layout's size; opaque tags keep the body as it is; any other
  tag yields a record that holds only the tag. `EncodeBody` is the inverse
  knowledge of each layout.
 */
module Records {
  import opened Bytes
  import opened Results
  import opened Struct
  import opened Slices

  datatype Record =
      /** Tag 0: declares the length of the whole header span and of the data section. */
    | Primary(fileTypeCode: byte, headerLength: u32, dataLength: u64)
      /** Tag 1 */
    | ImageStructure(bitsPerPixel: byte, columns: u16, lines: u16, compression: byte)
      /** Tag 2: a 32-byte projection name and four scaling and offset factors. */
    | ImageNavigation(projectionName: seq<byte>, columnScale: u32, lineScale: u32,
                      columnOffset: u32, lineOffset: u32)
      /** Tag 3 */
    | ImageDataFunction(data: seq<byte>)
      /** Tag 4: the file name later used for renaming. */
    | Annotation(filename: seq<byte>)
      /** Tag 5: days and milliseconds since 1958-01-01. */
    | Timestamp(days: u16, milliseconds: u32)
      /** Tag 6 */
    | AncillaryText(data: seq<byte>)
      /** Tag 7 */
    | KeyHeader(data: seq<byte>)
      /** Tag 128 */
    | SegmentIdentification(imageId: u16, sequenceNumber: u16, startColumn: u16, startLine: u16,
                            maxSegment: u16, maxColumn: u16, maxRow: u16)
      /** Tag 129: NOAA product-specific header with a 4-byte signature. */
    | NoaaSpecific(signature: seq<byte>, productId: u16, productSubId: u16, parameter: u16,
                   compression: byte)
      /** Tag 130: header structured record. */
    | StructuredRecord(data: seq<byte>)
      /** Tag 131 */
    | RiceCompression(flags: u16, pixel: byte, line: byte)
      /** Tag 132 */
    | DcsFilename(data: seq<byte>)
      /** Any tag parseHeader does not map. */
    | Unknown(tag: byte)
  {
    /** The `type` entry of the decoded record. */
    function Tag(): byte
    {
      match this
      case Primary(_, _, _) => 0
      case ImageStructure(_, _, _, _) => 1
      case ImageNavigation(_, _, _, _, _) => 2
      case ImageDataFunction(_) => 3
      case Annotation(_) => 4
      case Timestamp(_, _) => 5
      case AncillaryText(_) => 6
      case KeyHeader(_) => 7
      case SegmentIdentification(_, _, _, _, _, _, _) => 128
      case NoaaSpecific(_, _, _, _, _) => 129
      case StructuredRecord(_) => 130
      case RiceCompression(_, _, _) => 131
      case DcsFilename(_) => 132
      case Unknown(t) => t
    }

    /** The record could have come out of the decoder: fixed-width strings have their width,
        and an Unknown record does not carry a tag the decoder maps. */
    predicate WellFormed()
    {
      match this
      case ImageNavigation(name, _, _, _, _) => |name| == 32
      case NoaaSpecific(sig, _, _, _, _) => |sig| == 4
      case Unknown(t) => !KnownTag(t)
      case _ => true
    }
  }

  /** The tags parseHeader maps to a typed record. */
  predicate KnownTag(tag: byte)
  {
    tag <= 7 || 128 <= tag <= 132
  }

  /** The tags whose body is kept byte for byte. */
  predicate OpaqueTag(tag: byte)
  {
    tag == 3 || tag == 4 || tag == 6 || tag == 7 || tag == 130 || tag == 132
  }

  /** The body length parseHeader accepts for a fixed-layout tag; None when every length is accepted. */
  function FixedBodyLength(tag: byte): Option<nat>
  {
    match tag
    case 0 => Some(13)
    case 1 => Some(6)
    case 2 => Some(48)
    case 5 => Some(7)
    case 128 => Some(14)
    case 129 => Some(11)
    case 131 => Some(4)
    case _ => None
  }

  /** The opaque payload of a record with an opaque tag. */
  function OpaqueData(r: Record): seq<byte>
    requires OpaqueTag(r.Tag())
  {
    match r
    case Annotation(name) => name
    case ImageDataFunction(d) => d
    case AncillaryText(d) => d
    case KeyHeader(d) => d
    case StructuredRecord(d) => d
    case DcsFilename(d) => d
    case _ => []
  }


  /** ">BIQ" */
  const PrimaryLayout: seq<Field> := [UInt(1), UInt(4), UInt(8)]
  /** ">BHHB" */
  const ImageStructureLayout: seq<Field> := [UInt(1), UInt(2), UInt(2), UInt(1)]
  /** ">32sIIII" */
  const ImageNavigationLayout: seq<Field> := [Chars(32), UInt(4), UInt(4), UInt(4), UInt(4)]
  /** ">HI", applied to the timestamp body after its first byte */
  const TimestampLayout: seq<Field> := [UInt(2), UInt(4)]
  /** ">7H" */
  const SegmentLayout: seq<Field> := [UInt(2), UInt(2), UInt(2), UInt(2), UInt(2), UInt(2), UInt(2)]
  /** ">4sHHHB" */
  const NoaaLayout: seq<Field> := [Chars(4), UInt(2), UInt(2), UInt(2), UInt(1)]
  /** ">HBB" */
  const RiceLayout: seq<Field> := [UInt(2), UInt(1), UInt(1)]

  /** The struct format parseHeader unpacks for a tag; None for the opaque and unmapped tags. */
  function Layout(tag: byte): Option<seq<Field>>
  {
    match tag
    case 0 => Some(PrimaryLayout)
    case 1 => Some(ImageStructureLayout)
    case 2 => Some(ImageNavigationLayout)
    case 5 => Some(TimestampLayout)
    case 128 => Some(SegmentLayout)
    case 129 => Some(NoaaLayout)
    case 131 => Some(RiceLayout)
    case _ => None
  }

  /** Number of leading body bytes skipped before unpacking: only the timestamp skips one. */
  function Skipped(tag: byte): nat
  {
    if tag == 5 then 1 else 0
  }

  lemma LayoutSizes()
    ensures Size(PrimaryLayout) == 13
    ensures Size(ImageStructureLayout) == 6
    ensures Size(ImageNavigationLayout) == 48
    ensures Size(TimestampLayout) == 6
    ensures Size(SegmentLayout) == 14
    ensures Size(NoaaLayout) == 11
    ensures Size(RiceLayout) == 4
  {
  }

  /** The layout table agrees with the body lengths: a tag has a fixed body length exactly when
      it has a layout, and that length is the skipped prefix plus the layout's size. */
  lemma LayoutMatchesFixedLength(tag: byte)
    ensures Layout(tag).Some? <==> FixedBodyLength(tag).Some?
    ensures Layout(tag).Some? ==> FixedBodyLength(tag).value == Skipped(tag) + Size(Layout(tag).value)
    ensures Layout(tag).None? ==> OpaqueTag(tag) || !KnownTag(tag)
  {
    LayoutSizes();
  }

  /** The typed record built from the unpacked fields of a fixed-layout tag, in layout order. */
  function FromFields(tag: byte, v: seq<Value>): (r: Record)
    requires Layout(tag).Some? && Conforms(Layout(tag).value, v)
    ensures r.Tag() == tag && r.WellFormed()
  {
    Pow256Widths();
    match tag
    case 0 => Primary(v[0].n, v[1].n, v[2].n)
    case 1 => ImageStructure(v[0].n, v[1].n, v[2].n, v[3].n)
    case 2 => ImageNavigation(v[0].bytes, v[1].n, v[2].n, v[3].n, v[4].n)
    case 5 => Timestamp(v[0].n, v[1].n)
    case 128 => SegmentIdentification(v[0].n, v[1].n, v[2].n, v[3].n, v[4].n, v[5].n, v[6].n)
    case 129 => NoaaSpecific(v[0].bytes, v[1].n, v[2].n, v[3].n, v[4].n)
    case 131 => RiceCompression(v[0].n, v[1].n, v[2].n)
  }

  /** The fields of a fixed-layout record, in layout order. */
  function ToFields(r: Record): (v: seq<Value>)
    requires r.WellFormed() && Layout(r.Tag()).Some?
    ensures Conforms(Layout(r.Tag()).value, v)
  {
    Pow256Widths();
    match r
    case Primary(a, b, c) => [Int(a), Int(b), Int(c)]
    case ImageStructure(a, b, c, d) => [Int(a), Int(b), Int(c), Int(d)]
    case ImageNavigation(a, b, c, d, e) => [Str(a), Int(b), Int(c), Int(d), Int(e)]
    case Timestamp(a, b) => [Int(a), Int(b)]
    case SegmentIdentification(a, b, c, d, e, f, g) => [Int(a), Int(b), Int(c), Int(d), Int(e), Int(f), Int(g)]
    case NoaaSpecific(a, b, c, d, e) => [Str(a), Int(b), Int(c), Int(d), Int(e)]
    case RiceCompression(a, b, c) => [Int(a), Int(b), Int(c)]
  }

  lemma ToFromFields(tag: byte, v: seq<Value>)
    requires Layout(tag).Some? && Conforms(Layout(tag).value, v)
    ensures ToFields(FromFields(tag, v)) == v
  {
  }

  lemma FromToFields(r: Record)
    requires r.WellFormed() && Layout(r.Tag()).Some?
    ensures FromFields(r.Tag(), ToFields(r)) == r
  {
  }

  /** The record an opaque tag wraps its body in. */
  function OpaqueRecord(tag: byte, body: seq<byte>): (r: Record)
    requires OpaqueTag(tag)
    ensures r.Tag() == tag && OpaqueData(r) == body
  {
    match tag
    case 3 => ImageDataFunction(body)
    case 4 => Annotation(body)
    case 6 => AncillaryText(body)
    case 7 => KeyHeader(body)
    case 130 => StructuredRecord(body)
    case 132 => DcsFilename(body)
  }

  /** struct.unpack on a record body, with its failure reported against the record's tag. */
  function UnpackBody(tag: byte, fmt: seq<Field>, data: seq<byte>): (r: Result<seq<Value>, DecodeError>)
    ensures r.Success? <==> |data| == Size(fmt)
    ensures r.Success? ==> Conforms(fmt, r.value)
    ensures r.Failure? ==> r.error == StructError(tag)
  {
    match Unpack(fmt, data)
    case Some(vs) => Success(vs)
    case None => Failure(StructError(tag))
  }

  /** parseHeader(type, data): the record a tag and body decode to. */
  function DecodeRecord(tag: byte, body: seq<byte>): (r: Result<Record, DecodeError>)
    ensures r.Success? <==> FixedBodyLength(tag).None? || |body| == FixedBodyLength(tag).value
    ensures r.Success? ==> r.value.Tag() == tag && r.value.WellFormed()
    ensures r.Failure? ==> r.error == StructError(tag)
    ensures OpaqueTag(tag) ==> r.Success? && OpaqueData(r.value) == body
    ensures !KnownTag(tag) ==> r == Success(Unknown(tag))
  {
    LayoutMatchesFixedLength(tag);
    match Layout(tag)
    case None => Success(if OpaqueTag(tag) then OpaqueRecord(tag, body) else Unknown(tag))
    case Some(fmt) =>
      var v :- UnpackBody(tag, fmt, From(body, Skipped(tag)));
      Success(FromFields(tag, v))
  }

  /** The body a record is written with: fields packed big-endian in layout order, the opaque
      payload as it is, and nothing for an unmapped tag. The timestamp's leading byte, which the
      decoder skips, is written as zero. */
  function EncodeBody(r: Record): (body: seq<byte>)
    requires r.WellFormed()
    ensures FixedBodyLength(r.Tag()).Some? ==> |body| == FixedBodyLength(r.Tag()).value
    ensures OpaqueTag(r.Tag()) ==> body == OpaqueData(r)
    ensures !KnownTag(r.Tag()) ==> body == []
  {
    var tag := r.Tag();
    LayoutMatchesFixedLength(tag);
    if OpaqueTag(tag) then OpaqueData(r)
    else if Layout(tag).None? then []
    else
      var packed := Pack(Layout(tag).value, ToFields(r));
      if tag == 5 then [0] + packed else packed
  }

  /** Every record the decoder can produce is decoded back from its encoding. */
  lemma DecodeEncode(r: Record)
    requires r.WellFormed()
    ensures DecodeRecord(r.Tag(), EncodeBody(r)) == Success(r)
  {
    if Layout(r.Tag()).Some? {
      DecodeEncodeFixed(r);
    } else if OpaqueTag(r.Tag()) {
      DecodeEncodeOpaque(r);
    }
  }

  lemma DecodeEncodeFixed(r: Record)
    requires r.WellFormed() && Layout(r.Tag()).Some?
    ensures DecodeRecord(r.Tag(), EncodeBody(r)) == Success(r)
  {
    var tag := r.Tag();
    var fmt := Layout(tag).value;
    var packed := Pack(fmt, ToFields(r));
    assert From(EncodeBody(r), Skipped(tag)) == packed by {
      EncodeFixedBody(r);
    }
    UnpackPack(fmt, ToFields(r));
    DecodeFixedBody(tag, EncodeBody(r), ToFields(r));
    FromToFields(r);
  }

  lemma EncodeFixedBody(r: Record)
    requires r.WellFormed() && Layout(r.Tag()).Some?
    ensures From(EncodeBody(r), Skipped(r.Tag())) == Pack(Layout(r.Tag()).value, ToFields(r))
  {
    var tag := r.Tag();
    assert !OpaqueTag(tag);
    var packed := Pack(Layout(tag).value, ToFields(r));
    if tag == 5 {
      assert EncodeBody(r) == [0] + packed;
      assert ([0] + packed)[1..] == packed;
    } else {
      assert EncodeBody(r) == packed;
    }
  }

  lemma DecodeFixedBody(tag: byte, body: seq<byte>, v: seq<Value>)
    requires Layout(tag).Some?
    requires Unpack(Layout(tag).value, From(body, Skipped(tag))) == Some(v)
    ensures DecodeRecord(tag, body) == Success(FromFields(tag, v))
  {
  }

  lemma DecodeEncodeOpaque(r: Record)
    requires r.WellFormed() && OpaqueTag(r.Tag())
    ensures DecodeRecord(r.Tag(), EncodeBody(r)) == Success(r)
  {
    assert Layout(r.Tag()).None?;
    assert OpaqueRecord(r.Tag(), OpaqueData(r)) == r;
  }

  /** Decoding loses nothing but the timestamp's skipped first byte and an unmapped record's body:
      re-encoding a decoded record gives back the body it came from. */
  lemma EncodeDecode(tag: byte, body: seq<byte>)
    requires DecodeRecord(tag, body).Success?
    ensures KnownTag(tag) && tag != 5 ==> EncodeBody(DecodeRecord(tag, body).value) == body
    ensures tag == 5 ==> EncodeBody(DecodeRecord(tag, body).value)[1..] == body[1..]
  {
    LayoutMatchesFixedLength(tag);
    if Layout(tag).Some? {
      var fmt := Layout(tag).value;
      var data := From(body, Skipped(tag));
      var v := UnpackExact(fmt, data);
      assert DecodeRecord(tag, body).value == FromFields(tag, v);
      ToFromFields(tag, v);
      PackUnpack(fmt, data);
    }
  }

  /** The Primary body: file type code (u8), header length (u32), data length (u64), big-endian. */
  lemma DecodePrimaryFields(body: seq<byte>)
    requires |body| == 13
    ensures DecodeRecord(0, body) == Success(Primary(body[0], BeUint(body[1..5]), BeUint(body[5..13])))
  {
    Pow256Widths();
    assert body[..1] == [body[0]];
    assert BeUint([body[0]]) == body[0] by {
      assert [body[0]][..0] == [];
    }
    assert body[1..][..4] == body[1..5];
    assert body[1..][4..][..8] == body[5..13];
    assert body[1..][4..][8..] == [];
    var v := UnpackExact(PrimaryLayout, body);
    assert v == [Int(body[0]), Int(BeUint(body[1..5])), Int(BeUint(body[5..13]))];
  }

  /** The Rice compression body: flags (u16), pixels per block (u8), scan lines (u8), big-endian. */
  lemma DecodeRiceFields(body: seq<byte>)
    requires |body| == 4
    ensures DecodeRecord(131, body) == Success(RiceCompression(BeUint(body[..2]), body[2], body[3]))
  {
    Pow256Widths();
    assert body[2..][..1] == [body[2]];
    assert body[2..][1..][..1] == [body[3]];
    assert body[2..][1..][1..] == [];
    assert BeUint([body[2]]) == body[2] by {
      assert [body[2]][..0] == [];
    }
    assert BeUint([body[3]]) == body[3] by {
      assert [body[3]][..0] == [];
    }
    var v := UnpackExact(RiceLayout, body);
    assert v == [Int(BeUint(body[..2])), Int(body[2]), Int(body[3])];
  }

  /** A fixed-layout body decodes to the record built from its unpacked fields. */
  lemma DecodeUnskipped(tag: byte, body: seq<byte>)
    requires Layout(tag).Some? && Skipped(tag) == 0 && |body| == Size(Layout(tag).value)
    ensures DecodeRecord(tag, body) == Success(FromFields(tag, UnpackExact(Layout(tag).value, body)))
  {
    assert From(body, 0) == body;
    DecodeFixedBody(tag, body, UnpackExact(Layout(tag).value, body));
  }

  /** Where each field of the layout starts. */
  lemma ImageStructureOffsets()
    ensures Offset(ImageStructureLayout, 0) == 0
    ensures Offset(ImageStructureLayout, 1) == 1
    ensures Offset(ImageStructureLayout, 2) == 3
    ensures Offset(ImageStructureLayout, 3) == 5
    ensures Offset(ImageStructureLayout, 4) == 6
  {
    OffsetStep(ImageStructureLayout, 0);
    OffsetStep(ImageStructureLayout, 1);
    OffsetStep(ImageStructureLayout, 2);
    OffsetStep(ImageStructureLayout, 3);
  }

  /** The fields struct.unpack reads from the image structure body, one by one. */
  lemma ImageStructureValues(body: seq<byte>)
    requires |body| == 6
    ensures UnpackExact(ImageStructureLayout, body)[0] == Int(body[0])
    ensures UnpackExact(ImageStructureLayout, body)[1] == Int(BeUint(body[1..3]))
    ensures UnpackExact(ImageStructureLayout, body)[2] == Int(BeUint(body[3..5]))
    ensures UnpackExact(ImageStructureLayout, body)[3] == Int(body[5])
  {
    var fmt := ImageStructureLayout;
    ImageStructureOffsets();
    ByteFieldAt(fmt, body, 0, 0);
    UIntFieldAt(fmt, body, 1, 1);
    UIntFieldAt(fmt, body, 2, 3);
    ByteFieldAt(fmt, body, 3, 5);
  }

  /** The image structure body: bits per pixel (u8), columns (u16), lines (u16) and compression
      (u8), big-endian. */
  lemma DecodeImageStructureFields(body: seq<byte>)
    requires |body| == 6
    ensures DecodeRecord(1, body) ==
      Success(ImageStructure(body[0], BeUint(body[1..3]), BeUint(body[3..5]), body[5]))
  {
    LayoutSizes();
    ImageStructureValues(body);
    DecodeUnskipped(1, body);
  }

  /** Where each field of the layout starts. */
  lemma NavigationOffsets()
    ensures Offset(ImageNavigationLayout, 0) == 0
    ensures Offset(ImageNavigationLayout, 1) == 32
    ensures Offset(ImageNavigationLayout, 2) == 36
    ensures Offset(ImageNavigationLayout, 3) == 40
    ensures Offset(ImageNavigationLayout, 4) == 44
    ensures Offset(ImageNavigationLayout, 5) == 48
  {
    OffsetStep(ImageNavigationLayout, 0);
    OffsetStep(ImageNavigationLayout, 1);
    OffsetStep(ImageNavigationLayout, 2);
    OffsetStep(ImageNavigationLayout, 3);
    OffsetStep(ImageNavigationLayout, 4);
  }

  /** The fields struct.unpack reads from the image navigation body, one by one. */
  lemma NavigationValues(body: seq<byte>)
    requires |body| == 48
    ensures UnpackExact(ImageNavigationLayout, body)[0] == Str(body[..32])
    ensures UnpackExact(ImageNavigationLayout, body)[1] == Int(BeUint(body[32..36]))
    ensures UnpackExact(ImageNavigationLayout, body)[2] == Int(BeUint(body[36..40]))
    ensures UnpackExact(ImageNavigationLayout, body)[3] == Int(BeUint(body[40..44]))
    ensures UnpackExact(ImageNavigationLayout, body)[4] == Int(BeUint(body[44..48]))
  {
    var fmt := ImageNavigationLayout;
    NavigationOffsets();
    CharsFieldAt(fmt, body, 0, 0);
    UIntFieldAt(fmt, body, 1, 32);
    UIntFieldAt(fmt, body, 2, 36);
    UIntFieldAt(fmt, body, 3, 40);
    UIntFieldAt(fmt, body, 4, 44);
  }

  /** The image navigation body: the 32-byte projection name, then column scale, line scale,
      column offset and line offset, each a big-endian u32. */
  lemma DecodeNavigationFields(body: seq<byte>)
    requires |body| == 48
    ensures DecodeRecord(2, body) == Success(ImageNavigation(body[..32],
      BeUint(body[32..36]), BeUint(body[36..40]), BeUint(body[40..44]), BeUint(body[44..48])))
  {
    LayoutSizes();
    NavigationValues(body);
    DecodeUnskipped(2, body);
  }

  /** Where each field of the layout starts. */
  lemma SegmentOffsets()
    ensures Offset(SegmentLayout, 0) == 0
    ensures Offset(SegmentLayout, 1) == 2
    ensures Offset(SegmentLayout, 2) == 4
    ensures Offset(SegmentLayout, 3) == 6
    ensures Offset(SegmentLayout, 4) == 8
    ensures Offset(SegmentLayout, 5) == 10
    ensures Offset(SegmentLayout, 6) == 12
    ensures Offset(SegmentLayout, 7) == 14
  {
    OffsetStep(SegmentLayout, 0);
    OffsetStep(SegmentLayout, 1);
    OffsetStep(SegmentLayout, 2);
    OffsetStep(SegmentLayout, 3);
    OffsetStep(SegmentLayout, 4);
    OffsetStep(SegmentLayout, 5);
    OffsetStep(SegmentLayout, 6);
  }

  /** The fields struct.unpack reads from the segment identification body, one by one. */
  lemma SegmentValues(body: seq<byte>)
    requires |body| == 14
    ensures UnpackExact(SegmentLayout, body)[0] == Int(BeUint(body[0..2]))
    ensures UnpackExact(SegmentLayout, body)[1] == Int(BeUint(body[2..4]))
    ensures UnpackExact(SegmentLayout, body)[2] == Int(BeUint(body[4..6]))
    ensures UnpackExact(SegmentLayout, body)[3] == Int(BeUint(body[6..8]))
    ensures UnpackExact(SegmentLayout, body)[4] == Int(BeUint(body[8..10]))
    ensures UnpackExact(SegmentLayout, body)[5] == Int(BeUint(body[10..12]))
    ensures UnpackExact(SegmentLayout, body)[6] == Int(BeUint(body[12..14]))
  {
    var fmt := SegmentLayout;
    SegmentOffsets();
    UIntFieldAt(fmt, body, 0, 0);
    UIntFieldAt(fmt, body, 1, 2);
    UIntFieldAt(fmt, body, 2, 4);
    UIntFieldAt(fmt, body, 3, 6);
    UIntFieldAt(fmt, body, 4, 8);
    UIntFieldAt(fmt, body, 5, 10);
    UIntFieldAt(fmt, body, 6, 12);
  }

  /** The segment identification body: seven big-endian u16s, namely image id, sequence number,
      start column, start line, maximum segment, maximum column and maximum row. */
  lemma DecodeSegmentFields(body: seq<byte>)
    requires |body| == 14
    ensures DecodeRecord(128, body) == Success(SegmentIdentification(
      BeUint(body[0..2]), BeUint(body[2..4]), BeUint(body[4..6]), BeUint(body[6..8]),
      BeUint(body[8..10]), BeUint(body[10..12]), BeUint(body[12..14])))
  {
    LayoutSizes();
    SegmentValues(body);
    DecodeUnskipped(128, body);
  }

  /** Where each field of the layout starts. */
  lemma NoaaOffsets()
    ensures Offset(NoaaLayout, 0) == 0
    ensures Offset(NoaaLayout, 1) == 4
    ensures Offset(NoaaLayout, 2) == 6
    ensures Offset(NoaaLayout, 3) == 8
    ensures Offset(NoaaLayout, 4) == 10
    ensures Offset(NoaaLayout, 5) == 11
  {
    OffsetStep(NoaaLayout, 0);
    OffsetStep(NoaaLayout, 1);
    OffsetStep(NoaaLayout, 2);
    OffsetStep(NoaaLayout, 3);
    OffsetStep(NoaaLayout, 4);
  }

  /** The fields struct.unpack reads from the NOAA product body, one by one. */
  lemma NoaaValues(body: seq<byte>)
    requires |body| == 11
    ensures UnpackExact(NoaaLayout, body)[0] == Str(body[..4])
    ensures UnpackExact(NoaaLayout, body)[1] == Int(BeUint(body[4..6]))
    ensures UnpackExact(NoaaLayout, body)[2] == Int(BeUint(body[6..8]))
    ensures UnpackExact(NoaaLayout, body)[3] == Int(BeUint(body[8..10]))
    ensures UnpackExact(NoaaLayout, body)[4] == Int(body[10])
  {
    NoaaLeadingValues(body);
    NoaaTrailingValues(body);
  }

  lemma NoaaLeadingValues(body: seq<byte>)
    requires |body| == 11
    ensures UnpackExact(NoaaLayout, body)[0] == Str(body[..4])
    ensures UnpackExact(NoaaLayout, body)[1] == Int(BeUint(body[4..6]))
    ensures UnpackExact(NoaaLayout, body)[2] == Int(BeUint(body[6..8]))
  {
    LayoutSizes();
    NoaaOffsets();
    CharsFieldAt(NoaaLayout, body, 0, 0);
    UIntFieldAt(NoaaLayout, body, 1, 4);
    UIntFieldAt(NoaaLayout, body, 2, 6);
  }

  lemma NoaaTrailingValues(body: seq<byte>)
    requires |body| == 11
    ensures UnpackExact(NoaaLayout, body)[3] == Int(BeUint(body[8..10]))
    ensures UnpackExact(NoaaLayout, body)[4] == Int(body[10])
  {
    LayoutSizes();
    NoaaOffsets();
    UIntFieldAt(NoaaLayout, body, 3, 8);
    ByteFieldAt(NoaaLayout, body, 4, 10);
  }

  /** The NOAA product body: the 4-byte signature, then product id, product sub-id and parameter
      as big-endian u16s, and the compression byte. */
  lemma DecodeNoaaFields(body: seq<byte>)
    requires |body| == 11
    ensures DecodeRecord(129, body) == Success(NoaaSpecific(body[..4],
      BeUint(body[4..6]), BeUint(body[6..8]), BeUint(body[8..10]), body[10]))
  {
    LayoutSizes();
    NoaaValues(body);
    DecodeUnskipped(129, body);
  }
}

=== FILE: results.dfy ===
/**
  Failure-compatible wrappers and the ways decoding a header chain can go
  wrong. The Python decoder signals these by raising (struct.error,
  TypeError) or, in one case, by never returning; here each is a value.
 */
module Results {
  import opened Bytes

  datatype Option<+T> = None | Some(value: T) {
    predicate IsFailure() {
      None?
    }

    function PropagateFailure<U>(): Option<U>
      requires None?
    {
      None
    }

    function Extract(): T
      requires Some?
    {
      value
    }
  }

  datatype Result<+T, +E> = Success(value: T) | Failure(error: E) {
    predicate IsFailure() {
      Failure?
    }

    function PropagateFailure<U>(): Result<U, E>
      requires Failure?
    {
      Failure(error)
    }

    function Extract(): T
      requires Success?
    {
      value
    }
  }

  datatype DecodeError =
      /** struct.unpack rejected the body of a record with this tag: its length differs from the layout's size. */
    | StructError(tag: byte)
      /** Fewer than two bytes were left for the big-endian u16 record size (struct.error). */
    | ShortSizeField
      /** The cursor stood at the end of its input when the tag byte was read (ord of an empty string). */
    | NoTagByte
      /** A record declared size 0 and its empty body was accepted, so the walk repeats the same
          step forever: the Python loop never returns. */
    | Diverges
}

=== FILE: sections.dfy ===
/**
  How a file is split into its header span and its data section. `parseFile`,
  `loadData` and `dumpData` read the first record with `readHeader`, unpack the
  returned tuple into four names and take the third, `headerlength`, as the
  length of the header span: `parseFile` walks the first headerlength bytes
  with `getHeaderData`, `loadData` returns everything after them and
  `dumpData` copies the same bytes out. `datalength` is never consulted.

  Only the Primary record returns a 4-tuple by design, but the Rice
  compression record returns one too, so a file that opens with a Rice
  record gets through the unpacking with the pixel count as its header
  length. Both the behaviour as written and the one that insists on a
  Primary record are here; the rest of the file model uses the latter.
 */
module Files {
  import opened Bytes
  import opened Results
  import opened Struct
  import opened Slices
  import opened Records
  import opened Chain
  import opened HeaderReader

  /** The value readHeader returns for a record: the tag followed by the record's fields in
      layout order, or by the body for an opaque tag. For an unmapped tag it returns the bare
      tag, which is not a tuple at all (None). */
  function HeaderTuple(r: Record): (t: Option<seq<Value>>)
    requires r.WellFormed()
    ensures t.Some? <==> KnownTag(r.Tag())
    ensures t.Some? ==> |t.value| >= 2 && t.value[0] == Int(r.Tag())
  {
    var tag := r.Tag();
    LayoutMatchesFixedLength(tag);
    if Layout(tag).Some? then Some([Int(tag)] + ToFields(r))
    else if OpaqueTag(tag) then Some([Int(tag), Str(OpaqueData(r))])
    else None
  }

  /** Exactly the Primary and the Rice compression records come back as 4-tuples, and the third
      entry is the header length of the one and the pixels per block of the other. */
  lemma FourTuples(r: Record)
    requires r.WellFormed()
    ensures (HeaderTuple(r).Some? && |HeaderTuple(r).value| == 4) <==> r.Primary? || r.RiceCompression?
    ensures r.Primary? ==> HeaderTuple(r).value[2] == Int(r.headerLength)
    ensures r.RiceCompression? ==> HeaderTuple(r).value[2] == Int(r.pixel)
  {
    LayoutSizes();
    LayoutMatchesFixedLength(r.Tag());
  }

  /** The header length as the code reads it: readHeader's result is unpacked into four names
      inside a try block, so the third entry of any 4-tuple is taken, and None stands for
      readHeader raising or returning something that does not unpack into four names. */
  function HeaderLengthAsWritten(file: seq<byte>): (h: Option<nat>)
    ensures h.Some? <==>
      (ReadHeader(Cursor(file, 0)).Success? &&
       (ReadHeader(Cursor(file, 0)).value.rec.Primary? || ReadHeader(Cursor(file, 0)).value.rec.RiceCompression?))
  {
    match ReadHeader(Cursor(file, 0))
    case Failure(_) => None
    case Success(Parsed(rec, _)) =>
      FourTuples(rec);
      var t := HeaderTuple(rec);
      if t.Some? && |t.value| == 4 then Some(t.value[2].n) else None
  }

  /** The header length as intended: that of a Primary record at the start of the file. */
  function HeaderLength(file: seq<byte>): (h: Option<nat>)
    ensures h.Some? <==> (ReadHeader(Cursor(file, 0)).Success? && ReadHeader(Cursor(file, 0)).value.rec.Primary?)
  {
    match ReadHeader(Cursor(file, 0))
    case Success(Parsed(Primary(_, headerLength, _), _)) => Some(headerLength)
    case _ => None
  }

  /** The two readings agree except on a file whose first record is a Rice compression record,
      which the code as written accepts with the pixel count as header length. */
  lemma HeaderLengthReadings(file: seq<byte>)
    ensures HeaderLength(file).Some? ==> HeaderLengthAsWritten(file) == HeaderLength(file)
    ensures HeaderLengthAsWritten(file) != HeaderLength(file) <==>
      ReadHeader(Cursor(file, 0)).Success? && ReadHeader(Cursor(file, 0)).value.rec.RiceCompression?
    ensures HeaderLengthAsWritten(file) != HeaderLength(file) ==>
      HeaderLength(file) == None && HeaderLengthAsWritten(file) == Some(ReadHeader(Cursor(file, 0)).value.rec.pixel)
  {
    var r := ReadHeader(Cursor(file, 0));
    if r.Success? {
      FourTuples(r.value.rec);
    }
  }

  /** loadData as written: after seeking to the header length, everything left in the file,
      empty when the header length lies past the end; dumpData copies out the same bytes. */
  function DataSectionAsWritten(file: seq<byte>): (data: Option<seq<byte>>)
    ensures data.Some? <==> HeaderLengthAsWritten(file).Some?
    ensures data.Some? ==> |data.value| == |file| - Min(HeaderLengthAsWritten(file).value, |file|)
    ensures data.Some? ==> data.value == file[|file| - |data.value|..]
  {
    var h :- HeaderLengthAsWritten(file);
    Some(From(file, h))
  }

  /** The data section of a file whose first record is the Primary one. */
  function DataSection(file: seq<byte>): (data: Option<seq<byte>>)
    ensures data.Some? <==> HeaderLength(file).Some?
    ensures data.Some? ==> |data.value| == |file| - Min(HeaderLength(file).value, |file|)
    ensures data.Some? ==> data.value == file[|file| - |data.value|..]
  {
    var h :- HeaderLength(file);
    Some(From(file, h))
  }

  /** parseFile: the records walked over the first header-length bytes of the file, read again
      from its start. */
  function FileHeaders(file: seq<byte>): (r: Option<Result<seq<Record>, DecodeError>>)
    ensures r.Some? <==> HeaderLength(file).Some?
  {
    var h :- HeaderLength(file);
    Some(DecodeChain(UpTo(file, h)))
  }

  /** A file that opens with a Primary record whose header length covers the record's own size:
      walking its header span gives what walking the whole file does, since the walk never
      reaches past the header length. */
  lemma FileHeadersAreTheChain(file: seq<byte>)
    requires |file| >= PrefixLength && FrameSize(file) >= PrefixLength
    requires HeaderLength(file).Some? && HeaderLength(file).value >= FrameSize(file)
    ensures FileHeaders(file) == Some(DecodeChain(file))
  {
    ReadHeaderAgreesWithChain(file);
    var h := HeaderLength(file).value;
    assert FirstRecord(file).Success? && FirstRecord(file).value.Primary?;
    assert FirstRecord(file).value.headerLength == h;
    PrimaryBoundsChain(file);
    assert UpTo(file, h) == file[..Min(h, |file|)];
  }

  /** A file written as a Primary record declaring the header span's exact length, further
      records and a payload splits back into those records and that payload, whatever data
      length the Primary record declares. */
  lemma EncodedFileSplits(p: Record, rs: seq<Record>, payload: seq<byte>)
    requires p.Primary? && Encodable(p)
    requires forall i :: 0 <= i < |rs| ==> Encodable(rs[i]) && !rs[i].Primary?
    requires p.headerLength == |EncodeFrame(p)| + |EncodeChain(rs)|
    ensures var file := EncodeFrame(p) + EncodeChain(rs) + payload;
      HeaderLength(file) == Some(p.headerLength) &&
      DataSection(file) == Some(payload) &&
      FileHeaders(file) == Some(Success([p] + rs))
  {
    var header := EncodeFrame(p) + EncodeChain(rs);
    var file := header + payload;
    PrimaryFrameHeaderLength(p, EncodeChain(rs), payload);
    SplitAt(header, payload);
    HeaderRoundTrip(p, rs, []);
    assert header + [] == header;
  }

  /** A file that opens with a written Primary record has that record's header length. */
  lemma PrimaryFrameHeaderLength(p: Record, rest: seq<byte>, payload: seq<byte>)
    requires p.Primary? && Encodable(p)
    ensures HeaderLength(EncodeFrame(p) + rest + payload) == Some(p.headerLength)
  {
    var file := EncodeFrame(p) + rest + payload;
    assert file == EncodeFrame(p) + (rest + payload);
    ReadHeaderOfFrame(p, rest + payload);
  }

  lemma SplitAt(header: seq<byte>, payload: seq<byte>)
    ensures From(header + payload, |header|) == payload
    ensures UpTo(header + payload, |header|) == header
  {
    assert (header + payload)[|header|..] == payload;
    assert (header + payload)[..|header|] == header;
  }

  /** As written, a file that opens with a Rice compression record is taken to have a header
      span as long as its pixels-per-block field. */
  lemma RiceFirstAsWritten(r: Record, after: seq<byte>)
    requires r.RiceCompression? && Encodable(r)
    ensures var file := EncodeFrame(r) + after;
      HeaderLengthAsWritten(file) == Some(r.pixel) &&
      DataSectionAsWritten(file) == Some(From(file, r.pixel))
  {
    ReadHeaderOfFrame(r, after);
    var file := EncodeFrame(r) + after;
    RiceSections(file, r, Cursor(file, |EncodeFrame(r)|));
  }

  /** The corrected reading rejects such a file, as the try/except means to. */
  lemma RiceFirstCorrected(r: Record, after: seq<byte>)
    requires r.RiceCompression? && Encodable(r)
    ensures var file := EncodeFrame(r) + after;
      HeaderLength(file) == None && DataSection(file) == None && FileHeaders(file) == None
  {
    ReadHeaderOfFrame(r, after);
    var file := EncodeFrame(r) + after;
    RiceSections(file, r, Cursor(file, |EncodeFrame(r)|));
  }

  /** A nine-byte file opening with a Rice record whose pixel count is 2: as written its data
      section starts at byte 2, inside the Rice record itself. */
  lemma RiceFirstFile()
    ensures HeaderLengthAsWritten([131, 0, 7, 0x12, 0x34, 2, 9, 0xAA, 0xBB]) == Some(2)
    ensures DataSectionAsWritten([131, 0, 7, 0x12, 0x34, 2, 9, 0xAA, 0xBB]) == Some([7, 0x12, 0x34, 2, 9, 0xAA, 0xBB])
    ensures DataSection([131, 0, 7, 0x12, 0x34, 2, 9, 0xAA, 0xBB]) == None
  {
    var file: seq<byte> := [131, 0, 7, 0x12, 0x34, 2, 9, 0xAA, 0xBB];
    RiceFileRecord(file);
    RiceSections(file, RiceCompression(0x1234, 2, 9), Cursor(file, 7));
    assert From(file, 2) == [7, 0x12, 0x34, 2, 9, 0xAA, 0xBB];
  }

  /** What each reading makes of a file whose first record is a Rice compression record. */
  lemma RiceSections(file: seq<byte>, rec: Record, c: Cursor)
    requires ReadHeader(Cursor(file, 0)) == Success(Parsed(rec, c)) && rec.RiceCompression?
    ensures HeaderLengthAsWritten(file) == Some(rec.pixel)
    ensures DataSectionAsWritten(file) == Some(From(file, rec.pixel))
    ensures HeaderLength(file) == None && DataSection(file) == None && FileHeaders(file) == None
  {
    FourTuples(rec);
  }

  lemma RiceFileRecord(file: seq<byte>)
    requires file == [131, 0, 7, 0x12, 0x34, 2, 9, 0xAA, 0xBB]
    ensures ReadHeader(Cursor(file, 0)) == Success(Parsed(RiceCompression(0x1234, 2, 9), Cursor(file, 7)))
  {
    var body: seq<byte> := [0x12, 0x34, 2, 9];
    RiceFileFrame(file, body);
    DecodeRiceFields(body);
    assert body[..2] == [0x12, 0x34];
    assert BeUint([0x12, 0x34]) == 0x1234 by {
      assert [0x12, 0x34][..1] == [0x12];
    }
    ReadHeaderAgreesWithChain(file);
  }

  lemma RiceFileFrame(file: seq<byte>, body: seq<byte>)
    requires file == [131, 0, 7, 0x12, 0x34, 2, 9, 0xAA, 0xBB] && body == [0x12, 0x34, 2, 9]
    ensures FrameSize(file) == 7 && FrameBody(file) == body
  {
    Pow256Widths();
    assert file[1..3] == [0, 7];
    assert BeUint([0, 7]) == 7 by {
      assert [0, 7][..1] == [0];
    }
    assert file[3..7] == body by {
      assert forall i | 0 <= i < 4 :: file[3..7][i] == body[i];
    }
    assert FrameBody(file) == Range(file, 3, 7);
  }
}

=== FILE: slices.dfy ===
/**
  Python slice semantics on sequences. Out-of-range bounds are clipped to
  the length instead of failing, an empty range yields an empty sequence,
  and a negative stop counts from the end. The chain walker relies on all
  three.
 */
module Slices {

  function Min(a: int, b: int): int
  {
    if a <= b then a else b
  }

  function Max(a: int, b: int): int
  {
    if a <= b then b else a
  }

  /** s[a:b] for non-negative a and b. */
  function Range<T>(s: seq<T>, a: nat, b: nat): (r: seq<T>)
    ensures a <= b <= |s| ==> r == s[a..b]
    ensures b <= a ==> r == []
    ensures a <= |s| <= b ==> r == s[a..]
    ensures |s| <= a ==> r == []
  {
    var lo := Min(a, |s|);
    var hi := Max(lo, Min(b, |s|));
    s[lo..hi]
  }

  /** s[a:] for non-negative a. */
  function From<T>(s: seq<T>, a: nat): (r: seq<T>)
    ensures a <= |s| ==> r == s[a..]
    ensures |s| <= a ==> r == []
  {
    s[Min(a, |s|)..]
  }

  /** s[:k]; a negative k drops -k elements from the end. */
  function UpTo<T>(s: seq<T>, k: int): (r: seq<T>)
    ensures |r| <= |s| && r == s[..|r|]
    ensures 0 <= k ==> |r| == Min(k, |s|)
    ensures k < 0 ==> |r| == Max(0, |s| + k)
  {
    if 0 <= k then s[..Min(k, |s|)] else s[..Max(0, |s| + k)]
  }

  /** A slice of a slice is a slice of the original. */
  lemma SliceOfSlice<T>(s: seq<T>, lo: nat, hi: nat, a: nat, b: nat)
    requires lo <= hi <= |s| && a <= b <= hi - lo
    ensures s[lo..hi][a..b] == s[lo + a..lo + b]
  {
    forall i | 0 <= i < b - a
      ensures s[lo..hi][a..b][i] == s[lo + a..lo + b][i]
    {
    }
  }
}

=== FILE: timestamps.dfy ===
/**
  The time a Timestamp record (tag 5) denotes: `days` days and `milliseconds`
  milliseconds after 1958-01-01 00:00, the epoch the printer adds them to.
  Only the integer offset in milliseconds is modelled, not calendar dates.
 */
module Timestamps {
  import opened Bytes
  import opened Results
  import opened Struct
  import opened Records

  const MsPerDay: nat := 86_400_000

  /** Milliseconds since the epoch of a (days, milliseconds) pair. A millisecond count of a day or
      more carries into the following days, as a timedelta does. */
  function EpochOffsetMs(days: nat, ms: nat): nat
  {
    days * MsPerDay + ms
  }

  /** The whole days of an offset. */
  function DayOf(t: nat): nat
  {
    t / MsPerDay
  }

  /** The milliseconds into its day of an offset. */
  function MsOfDay(t: nat): (ms: nat)
    ensures ms < MsPerDay
  {
    t % MsPerDay
  }

  /** The instant a timestamp record stands for. */
  function RecordOffsetMs(r: Record): nat
    requires r.Timestamp?
  {
    EpochOffsetMs(r.days, r.milliseconds)
  }

  /** A pair whose milliseconds lie within a day is recovered from its offset. */
  lemma SplitJoin(days: nat, ms: nat)
    requires ms < MsPerDay
    ensures DayOf(EpochOffsetMs(days, ms)) == days
    ensures MsOfDay(EpochOffsetMs(days, ms)) == ms
  {
    var t := EpochOffsetMs(days, ms);
    assert t == days * MsPerDay + ms;
    DivModUnique(t, days, ms);
  }

  /** Every offset is its whole days plus its milliseconds into the day. */
  lemma JoinSplit(t: nat)
    ensures EpochOffsetMs(DayOf(t), MsOfDay(t)) == t
  {
  }

  /** Every offset inside the range a record can carry comes from some timestamp record whose
      milliseconds stay within the day. */
  lemma OffsetsRepresentable(t: nat)
    requires t < 0x1_0000 * MsPerDay
    ensures DayOf(t) < 0x1_0000 && MsOfDay(t) < 0x1_0000_0000
    ensures RecordOffsetMs(Timestamp(DayOf(t), MsOfDay(t))) == t
  {
    JoinSplit(t);
  }

  lemma DivModUnique(t: nat, q: nat, r: nat)
    requires r < MsPerDay && t == q * MsPerDay + r
    ensures t / MsPerDay == q && t % MsPerDay == r
  {
  }

  /** With milliseconds inside the day, offsets order timestamps as (days, milliseconds) pairs
      ordered lexicographically. */
  lemma OffsetOrder(d1: nat, m1: nat, d2: nat, m2: nat)
    requires m1 < MsPerDay && m2 < MsPerDay
    ensures EpochOffsetMs(d1, m1) < EpochOffsetMs(d2, m2) <==> d1 < d2 || (d1 == d2 && m1 < m2)
  {
    if d1 < d2 {
      assert d1 * MsPerDay + MsPerDay <= d2 * MsPerDay;
    } else if d2 < d1 {
      assert d2 * MsPerDay + MsPerDay <= d1 * MsPerDay;
    }
  }

  /** The timestamp body: one ignored byte, then days as a big-endian u16 and milliseconds as a
      big-endian u32. */
  lemma DecodeTimestampFields(body: seq<byte>)
    requires |body| == 7
    ensures DecodeRecord(5, body) == Success(Timestamp(BeUint(body[1..3]), BeUint(body[3..7])))
  {
    Pow256Widths();
    var data := body[1..];
    assert data[..2] == body[1..3];
    assert data[2..][..4] == body[3..7];
    assert data[2..][4..] == [];
    var v := UnpackExact(TimestampLayout, data);
    assert v == [Int(BeUint(body[1..3])), Int(BeUint(body[3..7]))];
  }

  /** One day and one millisecond after the epoch, whatever the ignored first byte holds. */
  lemma DayAndAMillisecond(skip: byte)
    ensures DecodeRecord(5, [skip, 0, 1, 0, 0, 0, 1]) == Success(Timestamp(1, 1))
    ensures RecordOffsetMs(Timestamp(1, 1)) == MsPerDay + 1
  {
    var body: seq<byte> := [skip, 0, 1, 0, 0, 0, 1];
    DecodeTimestampFields(body);
    assert body[1..3] == [0, 1];
    assert body[3..7] == [0, 0, 0, 1];
    assert BeUint([0, 1]) == 1 by {
      assert [0, 1][..1] == [0];
    }
    assert BeUint([0, 0, 0, 1]) == 1 by {
      assert [0, 0, 0, 1][..3] == [0, 0, 0];
      assert [0, 0, 0][..2] == [0, 0];
      assert [0, 0][..1] == [0];
    }
  }
}
